=== FILE: README.md ===
# Reversed Torto — a verified model of the solver core

Reversed Torto asks for every way to write a list of words on a 6 × 3
grid. Each word traces a path of 8-neighbouring cells. A path may not
revisit a cell, and may not cross itself diagonally at a cell corner.
Words may share a cell only where they agree on the letter. The solver
`torto` enumerates all such placements by backtracking. It counts them
with a symmetry-aware emitter: a board and its three mirror images (x-flip,
y-flip, both) are recognised as one "essentially unique" solution.
`tortomerge` reads boards that partitioned `torto` runs printed, one per
line, and counts them again with the same emitter.

The project has six modules:

- `Grid` (`grid.dfy`) — the grid, 8-adjacency, the four key orientations
  and the seed cells of the top-left quarter.
- `Trail` (`trail.dfy`) — the mathematics of one word's path:
  - `Stamp` is the crumb value `l + 2` a letter leaves on its cell.
  - `Walk` is a legal path, including the no-crossing rule.
  - `Cover` is the number of words covering a cell.
- `Dedup` (`dedup.dfy`) — the emitter.
  - `AfterKey` / `AfterSolution` / `AfterBoard` give the exact effect of
    `output_sol_key` and `output_solution` on a `Stats` value.
  - The class `Tally` holds the four counters and the seen-key set, and
    updates them in place.
- `Partition` (`partition.dfy`) — the 32-bit linear congruential hash, the
  partition filter, the `-p` and word-count checks, and the longest-first
  word order.
- `Engine` (`engine.dfy`) — the class `Torto` with the `board`,
  `occupancy` and `crumbs` arrays. Its methods are `rec_torto` (split into
  its phases), `torto`, `is_determinate`, `board_key` and
  `output_solution`, plus `Run`, the checking and search part of `main`.
  - The arrays are tied to a ghost list `ps` of the words' paths by
    `Stamped(ps)`: crumbs are the stamps of the paths, occupancy is the
    number of paths covering each cell, and each covered cell holds the
    letter of every word covering it.
  - Every method of the search keeps `Stamped(ps)`, so every placement
    handed to the emitter is a `Solution`.
- `Merge` (`merge.dfy`) — tortomerge:
  - the line parser (`Decode`, `CStrLen`, `ParseBoard`);
  - the class `Merger`, with its `board` array and an emitter that is
    never in raw mode;
  - the read loop, as a fold `AfterLines` over the input lines.

Three points of the code that the model follows as written:

- The search is split between processes by a 32-bit linear congruential
  hash. A `static unsigned int h` advances as `h * 1103515245 + 12345`
  only at those start cells for the second word that pass the occupancy
  test, that is cells that are free or already hold the word's first letter,
  because `&&` skips the hash otherwise (torto.cpp:118-119). A process
  explores such a cell only when `h % par_cnt == par_idx`. The pair
  comes from `-p <cnt> <idx>`, which main rejects with -1 when `cnt < 1` or
  `idx >= cnt` (torto.cpp:239-242).
- After a word is complete, every cell of the board that is free or already
  holds the next word's first letter is tried as the next word's start, not
  only the cells next to the end of the word (torto.cpp:114-122).
- torto keys show `'.'` at an unoccupied cell. tortomerge keys copy the
  board character as it is, which is NUL for a cell parsed from `'.'`. Both
  are modelled as written.

The search is tied to the emitter's counters: the ghost list `solutions`
records every placement handed to `output_solution`, in order, and the
counters always equal the fold `AfterPlacements` of `AfterBoard` over the
boards of those placements. A second ghost list, `tried`, records each
cell at which `rec_torto` places the first letter of word 0; the seed loops
are proved to leave exactly the top-left quarter in it, row by row.

## Model

| member | source | states |
|---|---|---|
| Grid.OrientAt | torto.cpp:150-161 | position (i, j) of a key with flips reads the cell (flipy ? 5-i : i, flipx ? 2-j : j) of the board |
| Grid.OrientCompose | torto.cpp:191-194 | flipping a key and flipping the result is the key with the combined flips |
| Grid.OrientInvolution | torto.cpp:150-161 | each flip (x, y, both) applied twice gives back the key |
| Grid.OrientIdentity | torto.cpp:191 | the unflipped key is the board read row by row |
| Grid.OrbitOfMirror | torto.cpp:191-194 | a mirror image of a board has the same set of four keys as the board |
| Grid.OrbitKeysOfMirror | torto.cpp:191-194 | the four keys of a mirror image of a board are the board's four keys, each as often |
| Grid.KeysOfBoard | torto.cpp:191-194 | the four keys output_solution computes are the first key and its x-, y- and xy-flips |
| Grid.SeedsAreQuarter | torto.cpp:134-138 | a cell is a seed of torto iff its row is below (6+1)/2 and its column below (3+1)/2 |
| Grid.InSeedRows | torto.cpp:136-138 | the cells the two seed loops visit are exactly those of the first m rows and n columns |
| Grid.SeedsCoverGrid | torto.cpp:132-135 | every cell of the grid is a seed under some combination of flips |
| Grid.AllCells | torto.cpp:141-148 | every cell of the grid, row by row: 18 cells, all in the grid and all different |
| Trail.StampZero | torto.cpp:59 | a cell carries no crumb of a word iff the word's path does not visit it |
| Trail.StampAt | torto.cpp:59 | on a path without repeats the cell of letter k carries crumb k + 2 |
| Trail.StampHit | torto.cpp:59 | a non-zero crumb s names the cell of letter s - 2 of the path |
| Trail.StampStep | torto.cpp:59 | extending a path sets the crumb of the new cell to its length + 1 and changes no other crumb |
| Trail.StampsDifferByOne | torto.cpp:77-80 | the crumbs of two cells differ by exactly 1 iff the word visited them one right after the other |
| Trail.ConsecutiveAt | torto.cpp:64-106 | the two cells of every step of a path are consecutive on it, in both orders |
| Trail.ConsecutiveStep | torto.cpp:64-106 | two consecutive cells are the two ends of some step of the path |
| Trail.WalkPrefix | torto.cpp:68-106 | a path extended by a cell is legal iff the path is legal and the cell is in the grid, unvisited, adjacent to the last cell and the step cuts no corner |
| Trail.WalkDistinct | torto.cpp:68-69 | a legal path stays in the grid and visits no cell twice |
| Trail.WalkAdjacent | torto.cpp:67-106 | consecutive cells of a legal path are 8-neighbours |
| Trail.WalkNeverCrosses | torto.cpp:76-101 | no two steps of a legal path form an X through a cell corner, whichever came first |
| Trail.CoverZero | torto.cpp:61 | a cell's cover count is 0 iff no word's path visits it |
| Trail.CoverPositive | torto.cpp:61 | a cell on some word's path has a positive cover count |
| Trail.CoverWitness | torto.cpp:61 | a covered cell names a word and letter whose path reaches it |
| Trail.CoverExtend | torto.cpp:61 | extending one word's path by an unvisited cell raises that cell's cover count by 1 and no other |
| Trail.CoverAppendEmpty | torto.cpp:114-120 | a word not yet started covers no cell |
| Trail.CoverVisited | torto.cpp:61 | a cell's cover count is positive iff the cell is on some word's path |
| Trail.VisitedCard | torto.cpp:59-61 | the paths run through at most as many cells as they have letters |
| Trail.CoveredLength | torto.cpp:141-148 | a placement that covers every cell has at least 18 letters in total |
| Dedup.AfterFourKeys | torto.cpp:206-209 | output_sol_key over the four keys is the four calls in order |
| Dedup.AfterKey | torto.cpp:176-185 | output_sol_key counts the key iff the mode is raw or the key is unseen, adds to dsol exactly when it counts a determinate board, inserts the key outside raw mode and leaves the set alone in raw mode, and never touches esol or edsol |
| Dedup.Essential | torto.cpp:196-205 | esol grows by 1 iff the mode is not raw and none of the four keys is seen, edsol follows for a determinate board, and sol, dsol and the seen set are untouched |
| Dedup.KeysEffect | torto.cpp:176-185 | outside raw mode the keys all end up seen, sol grows by the number of distinct new keys, dsol likewise when determinate, esol and edsol unchanged |
| Dedup.RawKeysEffect | torto.cpp:176-185 | in raw mode every key counts once and the seen set stays as it was |
| Dedup.SolutionEffect | torto.cpp:187-210 | outside raw mode: all keys seen afterwards; sol grows by the distinct new keys; esol grows by 1 iff no key was seen before; edsol and dsol follow only for determinate boards |
| Dedup.RawEffect | torto.cpp:196-209 | in raw mode sol grows by the number of keys, 4 for a board (dsol too if determinate), while esol, edsol and the seen set are unchanged |
| Dedup.RawCountsEveryKey | torto.cpp:176-209 | a board adds exactly 4 to sol in raw mode (4 to dsol when determinate) and at most 4 outside raw mode |
| Dedup.ClosedOrbit | tortomerge.cpp:86-98 | if one key of a board is in a flip-closed set, all four are |
| Dedup.OrbitOfMember | tortomerge.cpp:81-84 | every key of a board has the same four keys as the board |
| Dedup.ClosedAddOrbit | tortomerge.cpp:95-98 | adding the four keys of a board keeps the seen set closed under flips |
| Dedup.AfterBoardOk | tortomerge.cpp:69-70 | one solution keeps dsol <= sol, edsol <= esol and the set closed, and no counter decreases nor key is lost |
| Dedup.TotalGrowsIffUnique | tortomerge.cpp:86-98 | with a flip-closed seen set, sol grows in a call iff esol grows in that call |
| Dedup.MirrorIsDuplicate | tortomerge.cpp:86-89 | after a board is emitted, emitting it again or any mirror of it changes nothing |
| Dedup.Tally.constructor | torto.cpp:32-41 | counters start at 0 and the seen set empty |
| Dedup.Tally.OutputSolKey | torto.cpp:176-185 | the new counters and set are AfterKey of the old: a key absent (or any key in raw mode) counts once, det adds to dsol, outside raw mode the key is inserted |
| Dedup.Tally.OutputSolution | torto.cpp:196-209 | the new state is AfterBoard of the old, the invariant is kept and nothing decreases |
| Partition.NextHash | torto.cpp:119 | the hash step yields a value below 2^32, as unsigned int arithmetic does |
| Partition.Selected | torto.cpp:119 | a cell passes the filter only for an index below par_cnt |
| Partition.PartitionOk | torto.cpp:242 | the -p pair is accepted iff par_cnt >= 1 and par_idx < par_cnt, and an accepted index owns at least one hash value |
| Partition.WordCountOk | torto.cpp:259 | the word count is accepted iff it lies between 1 and MAX_WORDS (64) |
| Partition.LongerFirst | torto.cpp:214-217 | sorter never puts a word before itself or an equal word |
| Partition.NextHashWraps | torto.cpp:117-119 | the hash step depends only on the state modulo 2^32, as with an unsigned int |
| Partition.SingleAlwaysSelected | torto.cpp:44-45 | with one partition (the default) the filter passes every cell |
| Partition.ExactlyOneOwner | torto.cpp:119 | every hash value passes the filter for exactly one index below par_cnt |
| Partition.PartitionCheckMatchesFilter | torto.cpp:242 | with par_cnt >= 1 the -p check accepts an index iff the filter can ever pass for it |
| Partition.LongerFirstIsStrictWeakOrder | torto.cpp:214-217 | sorter is irreflexive, transitive and its incomparability is transitive |
| Partition.InsertPermutes | torto.cpp:266-267 | inserting a word adds exactly that word to the list |
| Partition.InsertKeepsOrder | torto.cpp:266-267 | inserting into a list ordered longest first keeps it ordered |
| Partition.SortByLength | torto.cpp:266-267 | the presorted list is a permutation of the input in which no word follows a shorter one |
| Partition.SortedLongestFirst | torto.cpp:212-217 | the first presorted word is at least as long as every input word |
| Partition.InsertLength | torto.cpp:266-267 | inserting a word adds its length to the total length of the list |
| Partition.SortKeepsLength | torto.cpp:266-267 | presorting keeps the total number of letters |
| Engine.StepKeepsWalk | torto.cpp:67-106 | a step that passes rec_torto's tests (in grid, adjacent, unstamped, crumbs test for diagonals) keeps the word's path legal |
| Engine.LetterSource | torto.cpp:59-61 | a cell of that board shows '.' only when no path covers it, and otherwise the letter some word has at a position on that cell |
| Engine.AfterPlacementsSnoc | torto.cpp:187-210 | emitting one more placement moves the fold to AfterBoard of the earlier state on that placement's board |
| Engine.ShortWordsNeverDeterminate | torto.cpp:141-148 | when the words have fewer than 18 letters in total, emitting any solutions leaves dsol and edsol unchanged |
| Engine.RawCountsMore | torto.cpp:176-209 | over the same emitted placements, raw mode counts at least as many solutions and determinate solutions as deduplication does |
| Engine.NextWordExtends | torto.cpp:114-120 | starting the next word at a cell continues the placement |
| Engine.SeededInSeeds | torto.cpp:134-138 | a placement whose word 0 starts in the top-left quarter starts it on a cell of Seeds() |
| Engine.SeededAt | torto.cpp:134-138 | placements that continue the one-cell start at a seed all start word 0 on a seed |
| Engine.Torto.constructor | torto.cpp:22-45 | h = 0, counters zero, no solution yet, and occupancy and crumbs describe the placement with nothing placed (all zero) |
| Engine.Torto.ViewAt | torto.cpp:157 | a key shows '.' at a cell with occupancy 0 and the board letter at any other |
| Engine.Torto.ViewMirror | torto.cpp:155-157 | position (i, j) of a flipped key shows the flipped cell, '.' when it is unoccupied |
| Engine.Torto.CompleteIsSolution | torto.cpp:109-111 | a complete placement the arrays agree with is a solution: every path legal and of its word's length, and shared cells agree on the letter |
| Engine.Torto.CrumbNamesLetter | torto.cpp:59-61 | a non-zero crumb k + 2 of word v lies in 2..l + 2, marks letter k of v's path, and the cell is occupied and holds words[v][k] |
| Engine.Torto.CrumbIsStamp | torto.cpp:59 | the crumb of word v at a cell is the stamp of v's path there |
| Engine.Torto.ConsecutiveCrumbsAdjacent | torto.cpp:59-106 | cells with crumbs m and m + 1 of the same word are 8-neighbours |
| Engine.Torto.ViewRestored | torto.cpp:125-127 | with occupancy unchanged and letters unchanged at occupied cells, the board as keys show it is unchanged |
| Engine.Torto.ViewIsBoard | torto.cpp:141-161 | with the arrays describing ps, the unflipped key is the board the placement leaves, and is_determinate holds iff the placement covers every cell |
| Engine.Torto.RecTorto | torto.cpp:57-128 | on return occupancy and crumbs equal their values at entry, the board differs only at unoccupied cells, keys read the same, the arrays still describe ps, counters only grow, and h is untouched past word 0; (i, j) is appended to the log `tried` exactly when it takes letter 0 of word 0, and the log is unchanged otherwise; every placement emitted continues ps with (i, j) appended to word w, and when (i, j) takes the last letter of the last word exactly that placement is emitted, once, with the counters moving to AfterBoard of its board |
| Engine.Torto.Place | torto.cpp:59-127 | on return occupancy and crumbs equal their values at entry, the board differs only at unoccupied cells, keys read the same, the arrays still describe ps, counters only grow, and h is untouched past word 0; the log `tried` is unchanged; every placement emitted continues ps with (i, j) appended to word w, and when (i, j) takes the last letter of the last word exactly that placement is emitted, once, with the counters moving to AfterBoard of its board |
| Engine.Torto.AfterLetter | torto.cpp:63-124 | whichever of the three continuations is taken (extend, emit, next word), the arrays still describe ps, counters only grow, h is untouched past word 0 and every emitted placement continues ps; after the last letter of the last word the placement ps itself is emitted, once, and the counters become AfterBoard of the board as it stood |
| Engine.Torto.Enter | torto.cpp:59-61 | after stamping, writing the letter and counting the cover, the arrays describe the paths with (i, j) appended to word w |
| Engine.Torto.Leave | torto.cpp:125-127 | undoing the cover count and the crumb makes the arrays describe the paths without (i, j) again |
| Engine.Torto.Restored | torto.cpp:125-127 | two states describing the same placement agree on occupancy, crumbs, and the board at occupied cells |
| Engine.Torto.ExtendWord | torto.cpp:66-106 | after trying the eight neighbours the arrays still describe ps, counters only grow, h is untouched past word 0 and every emitted placement continues ps |
| Engine.Torto.TryStep | torto.cpp:68-106 | one neighbour test for the neighbour (y, x) keeps the same invariant; every placement emitted continues ps and puts letter n of word w on (y, x); when (y, x) cannot take that letter (CanPlace fails: the path would not stay legal, or the cell shows another letter) nothing is emitted and the counters are unchanged |
| Engine.Torto.StepOpenIff | torto.cpp:68-70 | in a state that describes ps, the array test of a neighbour (in the grid, free or showing the letter, not yet stamped, corner not cut) holds if and only if CanPlace holds for it |
| Engine.Torto.StepTo | torto.cpp:70 | placing the letter on a neighbour that passed the test keeps the invariant, and every placement emitted continues ps with that neighbour appended to word w |
| Engine.Torto.OpenStep | torto.cpp:68-70 | a neighbour that passes the array test is in the grid, extends the word's path to a legal walk, and is free or shows letter n |
| Engine.Torto.StepAllowed | torto.cpp:77-80 | for a neighbour of the word's last cell, the crumbs test passes if and only if appending the neighbour keeps the word's path legal |
| Engine.Torto.StartNextWord | torto.cpp:112-123 | after trying every cell as the next word's start the arrays still describe ps, counters only grow, h is untouched past word 0 and every emitted placement continues ps |
| Engine.Torto.TryStart | torto.cpp:117-120 | the hash advances exactly once when w == 0 and the cell is free or holds the next word's first letter, and is unchanged otherwise; when the cell is neither free nor holding that letter, or when w == 0 and the hash does not select this process, nothing is emitted and the counters are unchanged; every placement emitted starts word w + 1 at (y, x) |
| Engine.Torto.StartWord | torto.cpp:120 | a new word starts at the chosen cell, keeping the invariant and h; every emitted placement continues ps with word w + 1 starting at (y, x), that is, it continues ps + [[(y, x)]] |
| Engine.Torto.OutputSolution | torto.cpp:187-210 | the emitter's new state is AfterBoard of the old on the board as keys show it, determinate iff every cell is covered; the placement is appended to the recorded solutions |
| Engine.Torto.Keys | torto.cpp:189-194 | det is whether every cell is covered; the four keys are the board and its x-, y- and xy-flips |
| Engine.Torto.IsDeterminate | torto.cpp:141-148 | the result is true iff every cell has non-zero occupancy |
| Engine.Torto.BoardKey | torto.cpp:150-161 | the key is the board seen under the given flips, '.' at unoccupied cells, of length 18 |
| Engine.Torto.KeyRow | torto.cpp:154-158 | one row of a key: column j shows the flipped cell of row i |
| Engine.Torto.Search | torto.cpp:130-139 | the cells at which rec_torto starts word 0 (the log `tried`) are exactly the top-left quarter, Seeds(), in row order; every placement emitted starts word 0 on a seed; the arrays end describing the empty placement again |
| Engine.Torto.SearchRows | torto.cpp:136-138 | the outer seed loop over rows 0 .. m - 1 starts word 0 at exactly SeedRows(m, n), in order (the log grows by that list), and every placement emitted starts word 0 on a seed |
| Engine.Torto.SearchRow | torto.cpp:137-138 | the inner seed loop starts word 0 at (i, 0) .. (i, n - 1), in that order (the log grows by exactly SeedRow(i, n)), and every placement it emits starts word 0 on a seed |
| Engine.Torto.NextSeedRow | torto.cpp:136-138 | one pass of the outer seed loop: a log holding base + SeedRows(i, n) ends holding base + SeedRows(i + 1, n), and every placement emitted so far starts word 0 on a seed |
| Engine.Torto.NextSeed | torto.cpp:137-138 | one pass of the inner seed loop: a log holding base + SeedRow(i, j) ends holding base + SeedRow(i, j + 1), and every placement emitted so far starts word 0 on a seed |
| Engine.Torto.FromSeed | torto.cpp:138 | word 0 starts at the seed cell of an empty board, keeping the invariant, and the log grows by exactly that cell; every placement emitted has word 0 starting at that cell |
| Engine.Run | torto.cpp:239-272 | returns -1 iff the -p pair or the word count is rejected, with zero counters; otherwise 0, with the word list searched (presorted or not), the placements emitted, each a solution whose word 0 starts on a seed, the cells at which word 0 was started being exactly the seeds in row order, counters equal to the fold of AfterBoard over their boards and satisfying the emitter's invariant, in raw mode no key seen and no essential count, and no determinate count at all when the words have fewer than 18 letters in total |
| Merge.Decode | tortomerge.cpp:133-134 | a character is stored as empty iff it is '.' (or NUL) and copied otherwise |
| Merge.CStrLen | tortomerge.cpp:130 | strlen: no NUL before the result, and a NUL at it when it is inside the buffer |
| Merge.ParseBoard | tortomerge.cpp:131-136 | the parsed board has 18 cells; a cell is empty iff its character is '.' or NUL, and otherwise holds that character |
| Merge.AfterLine | tortomerge.cpp:130-137 | a line with strlen below 18 changes nothing; a longer one adds the four keys of its board to the seen set, and esol grows iff none of them was seen |
| Merge.NewlineCounts | tortomerge.cpp:130 | a line of 17 characters plus its newline passes the length test, and the newline lands on the last cell |
| Merge.ParsedDeterminate | tortomerge.cpp:36-43 | a parsed board is determinate iff none of the line's first 18 characters is '.' |
| Merge.ParseRender | tortomerge.cpp:128-136 | a board line printed with '.' at empty cells parses back to the board |
| Merge.ParseOrient | tortomerge.cpp:45-52 | parsing a mirrored line gives the mirrored board |
| Merge.RepeatedLineIsNoOp | tortomerge.cpp:68 | a line whose board repeats or mirrors an earlier one leaves counters and set unchanged |
| Merge.AfterLinesOk | tortomerge.cpp:128-139 | after any lines the emitter's invariant holds and nothing has decreased |
| Merge.Merger.constructor | tortomerge.cpp:17-29 | the board is all empty and the counters zero |
| Merge.Merger.IsDeterminate | tortomerge.cpp:36-43 | the result is true iff no board cell is 0 |
| Merge.Merger.BoardKey | tortomerge.cpp:45-52 | the key is the board under the given flips: entry (i, j) is board[flipy ? 5-i : i][flipx ? 2-j : j] |
| Merge.Merger.OutputSolution | tortomerge.cpp:77-99 | the new state is AfterBoard of the old, never in raw mode, determinate iff no cell is 0 |
| Merge.Merger.Load | tortomerge.cpp:131-136 | the board becomes the parse of the line's first 18 characters, '.' mapped to 0 |
| Merge.Merger.ProcessLine | tortomerge.cpp:130-138 | a line with strlen >= 18 is loaded and emitted; a shorter one leaves board and counters unchanged |
| Merge.Merger.MergeAll | tortomerge.cpp:128-139 | the state after the read loop is the fold AfterLines of the lines |
| Merge.MergeInput | tortomerge.cpp:128-139 | a run from nothing ends in AfterLines of its input, satisfying the emitter's invariant |

## Left out

- Stream input and output, rendering and statistics printing (`output_board`, `std::cin`/`std::cout`/`std::cerr`, `printf`): these are text I/O. `Run` takes the word count and the words as parameters, and `MergeInput` takes the lines `fgets` returned.
- Flag parsing: only the `-p` pair's check and the word-count check are modelled. `Run` receives `par_cnt`, `par_idx` and the `-u` and `-r` flags as parameters. The `strtoul` conversion is not part of this model.
- `Engine.Run`: `par_cnt` and `par_idx` are `unsigned int` in torto.cpp but naturals in the model, and values of 2^32 or more are not excluded; `strtoul` truncation to 32 bits is not modelled.
- The rendering flags `-e`, `-d`, `-s`, `-q`, `-m`: they only gate output, never the counters.
- `Partition.SortByLength`: the order among words of equal length is not the one `std::sort` leaves, because `std::sort` is unstable and its order is unspecified. The model promises only a permutation ordered by non-increasing length, and the search is run on that list.
- `std::unordered_set` is modelled as a mathematical set of strings, without its hashing.
- The `PAD_COL`/`PAD_ROW` padding of the arrays: the arrays are exactly 6 × 3, and crumbs are 64 × 6 × 3.
- The 64-bit wrap-around of the counters: they are unbounded naturals, because no run reaches 2^64 solutions.
- Cross-process claims about the union of `-p` runs. They depend on the order in which the whole traversal advances the shared `static` hash, so only the local facts of the filter are proved.
- `Engine.Run`: empty input words are excluded by its precondition. In the source an unread word is an empty C string, whose use reads past the word.
- `Engine.Run`: words containing a NUL character are excluded by its precondition. `std::cin >>` keeps a NUL byte inside the `std::string` (torto.cpp:264), but the engine reads each word through `c_str()` (torto.cpp:270) and so sees only the part before the first NUL; the model covers the words on which the two agree.
- Words are byte strings in torto: a letter outside ASCII, encoded in UTF-8 as several bytes, takes several cells there, but one cell in the model, whose words are sequences of characters.
- Engine.Torto.ExtendWord, Engine.Torto.TryStep, Engine.Torto.StartNextWord, Engine.Torto.TryStart, Engine.Torto.StartWord: completeness of the search is not stated. Their contracts say what every emitted placement looks like and when nothing is emitted, but not that a neighbour or start cell that passes the tests is explored; they would also hold for a body that skips such a branch. Every emitted placement is proved to be a solution starting on a seed, but not that every solution is emitted.
- `Engine.Torto.RecTorto`: the board is an `int` array in torto.cpp and a `char` array here, because only characters of words are ever stored in it.
- `Merge.MergeAll`: the lines are the buffers `fgets` returns. Splitting a line longer than 99 characters into several buffers is not modelled.

=== FILE: dedup.dfy ===
/**
 * The symmetry-aware solution emitter: the four counters and the set of
 * keys already seen, how one key and one solution update them, and the
 * class that holds them in place.
 */
module Dedup {
  import opened Grid

  /**
   * The emitter's state: all solutions including mirrored ones (`sol`), the
   * determinate ones among them (`dsol`), the essentially unique solutions
   * (`esol`) and the determinate ones among those (`edsol`), plus the keys seen.
   */
  datatype Stats = Stats(sol: nat, dsol: nat, esol: nat, edsol: nat, seen: set<string>)

  function Zero(): Stats {
    Stats(0, 0, 0, 0, {})
  }

  /** The effect of output_sol_key: a key not seen before (or any key in raw mode) is counted once. */
  function AfterKey(s: Stats, key: string, det: bool, raw: bool): (r: Stats)
    ensures r.sol > s.sol <==> raw || key !in s.seen
    ensures s.sol <= r.sol <= s.sol + 1
    ensures r.dsol - s.dsol == (if det then r.sol - s.sol else 0)
    ensures !raw ==> r.seen == s.seen + {key}
    ensures raw ==> r.seen == s.seen
    ensures r.esol == s.esol && r.edsol == s.edsol
  {
    if raw || key !in s.seen then
      Stats(s.sol + 1, s.dsol + (if det then 1 else 0), s.esol, s.edsol,
            if raw then s.seen else s.seen + {key})
    else s
  }

  /** output_sol_key applied to each key in turn. */
  function AfterKeys(s: Stats, keys: seq<string>, det: bool, raw: bool): Stats
    decreases keys
  {
    if keys == [] then s else AfterKeys(AfterKey(s, keys[0], det, raw), keys[1..], det, raw)
  }

  function KeySet(keys: seq<string>): set<string>
    decreases keys
  {
    if keys == [] then {} else {keys[0]} + KeySet(keys[1..])
  }

  /** The essential test of output_solution: outside raw mode, a board none of whose keys was seen is essentially unique. */
  function Essential(s: Stats, keys: seq<string>, det: bool, raw: bool): (r: Stats)
    ensures r.esol > s.esol <==> !raw && KeySet(keys) !! s.seen
    ensures s.esol <= r.esol <= s.esol + 1
    ensures r.edsol - s.edsol == (if det then r.esol - s.esol else 0)
    ensures r.sol == s.sol && r.dsol == s.dsol && r.seen == s.seen
  {
    if !raw && KeySet(keys) !! s.seen then
      Stats(s.sol, s.dsol, s.esol + 1, s.edsol + (if det then 1 else 0), s.seen)
    else s
  }

  /**
   * The effect of output_solution on the keys of one board: the essential
   * test against the keys seen before the call, then output_sol_key on each
   * key in the order identity, x-flip, y-flip, both.
   */
  function AfterSolution(s: Stats, keys: seq<string>, det: bool, raw: bool): Stats {
    AfterKeys(Essential(s, keys, det, raw), keys, det, raw)
  }

  /** AfterSolution on the four keys of the board whose unflipped key is `g`. */
  function AfterBoard(s: Stats, g: string, det: bool, raw: bool): Stats
    requires |g| == Cells
  {
    AfterSolution(s, OrbitKeys(g), det, raw)
  }

  /** The seen set holds board keys only, and with each key its x-flip and its y-flip. */
  ghost predicate Closed(seen: set<string>) {
    && (forall k :: k in seen ==> |k| == Cells)
    && (forall k {:trigger Orbit(k)} :: k in seen && |k| == Cells ==> Orbit(k) <= seen)
  }

  /** The counters' invariant: determinate counts never exceed their totals, and the seen set is closed under flips. */
  ghost predicate StatsOk(s: Stats) {
    s.dsol <= s.sol && s.edsol <= s.esol && Closed(s.seen)
  }

  /** Counters never decrease and no key is ever forgotten. */
  predicate Grows(s: Stats, t: Stats) {
    s.sol <= t.sol && s.dsol <= t.dsol && s.esol <= t.esol && s.edsol <= t.edsol && s.seen <= t.seen
  }

  // ---------------------------------------------------------------- lemmas

  lemma KeySetOfFour(a: string, b: string, c: string, d: string)
    ensures KeySet([a, b, c, d]) == {a, b, c, d}
  {
    assert [a, b, c, d][1..] == [b, c, d];
    assert [b, c, d][1..] == [c, d];
    assert [c, d][1..] == [d];
    assert [d][1..] == [];
    assert KeySet([d]) == {d};
    assert KeySet([c, d]) == {c, d};
    assert KeySet([b, c, d]) == {b, c, d};
  }

  /** output_sol_key over four keys, one call after another. */
  lemma AfterFourKeys(s: Stats, a: string, b: string, c: string, d: string, det: bool, raw: bool)
    ensures AfterKeys(s, [a, b, c, d], det, raw)
      == AfterKey(AfterKey(AfterKey(AfterKey(s, a, det, raw), b, det, raw), c, det, raw), d, det, raw)
  {
    var s1 := AfterKey(s, a, det, raw);
    var s2 := AfterKey(s1, b, det, raw);
    var s3 := AfterKey(s2, c, det, raw);
    assert [a, b, c, d][1..] == [b, c, d];
    assert [b, c, d][1..] == [c, d];
    assert [c, d][1..] == [d];
    assert [d][1..] == [];
    assert AfterKeys(s3, [d], det, raw) == AfterKey(s3, d, det, raw);
    assert AfterKeys(s2, [c, d], det, raw) == AfterKeys(s3, [d], det, raw);
    assert AfterKeys(s1, [b, c, d], det, raw) == AfterKeys(s2, [c, d], det, raw);
  }

  lemma OrbitKeySet(g: string)
    requires |g| == Cells
    ensures KeySet(OrbitKeys(g)) == Orbit(g)
  {
    KeySetOfFour(Orient(g, false, false), Orient(g, false, true), Orient(g, true, false), Orient(g, true, true));
  }

  /**
   * Outside raw mode, output_sol_key over a list of keys adds them all to
   * the seen set and counts each distinct key that was not seen before.
   */
  lemma {:induction false} KeysEffect(s: Stats, keys: seq<string>, det: bool)
    decreases keys
    ensures var r := AfterKeys(s, keys, det, false);
      var added := |KeySet(keys) - s.seen|;
      && r.seen == s.seen + KeySet(keys)
      && r.sol == s.sol + added && r.dsol == s.dsol + (if det then added else 0)
      && r.esol == s.esol && r.edsol == s.edsol
  {
    if keys != [] {
      var s' := AfterKey(s, keys[0], det, false);
      KeysEffect(s', keys[1..], det);
      var all, rest := KeySet(keys), KeySet(keys[1..]);
      if keys[0] in s.seen {
        assert all - s.seen == rest - s'.seen;
      } else {
        assert all - s.seen == {keys[0]} + (rest - s'.seen);
      }
    }
  }

  /** In raw mode output_sol_key counts every key and records none. */
  lemma {:induction false} RawKeysEffect(s: Stats, keys: seq<string>, det: bool)
    decreases keys
    ensures var r := AfterKeys(s, keys, det, true);
      && r.seen == s.seen && r.esol == s.esol && r.edsol == s.edsol
      && r.sol == s.sol + |keys| && r.dsol == s.dsol + (if det then |keys| else 0)
  {
    if keys != [] {
      RawKeysEffect(AfterKey(s, keys[0], det, true), keys[1..], det);
    }
  }

  /**
   * Outside raw mode, one solution adds its keys to the seen set, counts
   * each distinct key that is new (a symmetric board has fewer than four
   * distinct keys), and is essentially unique exactly when none of its keys
   * was seen; the determinate counters follow their totals when the board is
   * determinate.
   */
  lemma SolutionEffect(s: Stats, keys: seq<string>, det: bool)
    ensures var r := AfterSolution(s, keys, det, false);
      var added := |KeySet(keys) - s.seen|;
      var unique := KeySet(keys) !! s.seen;
      && r.seen == s.seen + KeySet(keys)
      && r.sol == s.sol + added
      && r.dsol == s.dsol + (if det then added else 0)
      && r.esol == s.esol + (if unique then 1 else 0)
      && r.edsol == s.edsol + (if unique && det then 1 else 0)
  {
    KeysEffect(Essential(s, keys, det, false), keys, det);
  }

  /** In raw mode every solution counts once per key, and the seen set and the essential counters stay as they were. */
  lemma RawEffect(s: Stats, keys: seq<string>, det: bool)
    ensures var r := AfterSolution(s, keys, det, true);
      && r.seen == s.seen && r.esol == s.esol && r.edsol == s.edsol
      && r.sol == s.sol + |keys| && r.dsol == s.dsol + (if det then |keys| else 0)
  {
    RawKeysEffect(s, keys, det);
  }

  /** If one key of a board is in a closed set, all four are. */
  lemma ClosedOrbit(seen: set<string>, g: string, flipy: bool, flipx: bool)
    requires Closed(seen) && |g| == Cells && Orient(g, flipy, flipx) in seen
    ensures Orbit(g) <= seen
  {
    var m := Orient(g, flipy, flipx);
    assert Orbit(m) <= seen;
    OrbitOfMirror(g, flipy, flipx);
  }

  /** Every key of a board has the same four keys as the board. */
  lemma OrbitOfMember(g: string, k: string)
    requires |g| == Cells && k in Orbit(g)
    ensures |k| == Cells && Orbit(k) == Orbit(g)
  {
    var a, b :| k == Orient(g, a, b);
    OrbitOfMirror(g, a, b);
  }

  lemma ClosedAddOrbitAt(seen: set<string>, g: string, k: string)
    requires Closed(seen) && |g| == Cells && k in seen + Orbit(g)
    ensures |k| == Cells && Orbit(k) <= seen + Orbit(g)
  {
    if k !in seen {
      OrbitOfMember(g, k);
    }
  }

  lemma AddOrbitKeepsLengths(seen: set<string>, g: string)
    requires Closed(seen) && |g| == Cells
    ensures forall k :: k in seen + Orbit(g) ==> |k| == Cells
  {
    forall k | k in seen + Orbit(g) ensures |k| == Cells {
      ClosedAddOrbitAt(seen, g, k);
    }
  }

  lemma AddOrbitKeepsOrbits(seen: set<string>, g: string)
    requires Closed(seen) && |g| == Cells
    ensures forall k {:trigger Orbit(k)} :: k in seen + Orbit(g) && |k| == Cells ==> Orbit(k) <= seen + Orbit(g)
  {
    forall k | k in seen + Orbit(g) && |k| == Cells ensures Orbit(k) <= seen + Orbit(g) {
      ClosedAddOrbitAt(seen, g, k);
    }
  }

  /** Adding the four keys of a board keeps the seen set closed under flips. */
  lemma ClosedAddOrbit(seen: set<string>, g: string)
    requires Closed(seen) && |g| == Cells
    ensures Closed(seen + Orbit(g))
  {
    AddOrbitKeepsLengths(seen, g);
    AddOrbitKeepsOrbits(seen, g);
  }

  /**
   * One board keeps the emitter's invariant, whatever the mode: counters only
   * grow, determinate counts stay below totals, and the seen set stays closed.
   */
  lemma AfterBoardOk(s: Stats, g: string, det: bool, raw: bool)
    requires StatsOk(s) && |g| == Cells
    ensures StatsOk(AfterBoard(s, g, det, raw)) && Grows(s, AfterBoard(s, g, det, raw))
  {
    if raw {
      RawEffect(s, OrbitKeys(g), det);
    } else {
      SolutionEffect(s, OrbitKeys(g), det);
      OrbitKeySet(g);
      ClosedAddOrbit(s.seen, g);
    }
  }

  /**
   * Raw mode adds exactly four to the total for each board (four to the
   * determinate total when it is determinate); deduplication adds at most
   * four, one per distinct new key.
   */
  lemma RawCountsEveryKey(s: Stats, t: Stats, g: string, det: bool)
    requires |g| == Cells
    ensures var r := AfterBoard(s, g, det, true);
      r.sol == s.sol + 4 && r.dsol == s.dsol + (if det then 4 else 0)
    ensures var d := AfterBoard(t, g, det, false);
      d.sol <= t.sol + 4 && d.dsol <= t.dsol + (if det then 4 else 0)
  {
    RawEffect(s, OrbitKeys(g), det);
    SolutionEffect(t, OrbitKeys(g), det);
    OrbitKeySet(g);
    SubsetCard(Orbit(g) - t.seen, Orbit(g));
    assert |Orbit(g)| <= 4;
  }

  /**
   * Outside raw mode, with a closed seen set, the total grows in a call if and
   * only if the essentially-unique count grows in that call.
   */
  lemma TotalGrowsIffUnique(s: Stats, g: string, det: bool)
    requires Closed(s.seen) && |g| == Cells
    ensures var r := AfterBoard(s, g, det, false);
      (r.sol > s.sol <==> r.esol > s.esol)
  {
    SolutionEffect(s, OrbitKeys(g), det);
    OrbitKeySet(g);
    if Orbit(g) !! s.seen {
      assert Orient(g, false, false) in Orbit(g) - s.seen;
    } else {
      var k :| k in Orbit(g) && k in s.seen;
      var a, b :| k == Orient(g, a, b);
      ClosedOrbit(s.seen, g, a, b);
      assert Orbit(g) - s.seen == {};
    }
  }

  /**
   * Outside raw mode, once a board has been emitted, emitting it again or any
   * of its mirror images changes neither the counters nor the seen set.
   */
  lemma MirrorIsDuplicate(s: Stats, g: string, det: bool, det': bool, flipy: bool, flipx: bool)
    requires |g| == Cells
    ensures var r := AfterBoard(s, g, det, false);
      AfterBoard(r, Orient(g, flipy, flipx), det', false) == r
  {
    var r := AfterBoard(s, g, det, false);
    var m := Orient(g, flipy, flipx);
    SolutionEffect(s, OrbitKeys(g), det);
    OrbitKeySet(g);
    OrbitKeySet(m);
    OrbitOfMirror(g, flipy, flipx);
    SolutionEffect(r, OrbitKeys(m), det');
    assert KeySet(OrbitKeys(m)) - r.seen == {};
  }

  // ----------------------------------------------------------------- Tally

  /** The emitter's counters and seen set, updated in place. */
  class Tally {
    /** Raw mode: no deduplication at all. */
    const raw: bool
    var solCount: nat
    var dsolCount: nat
    var esolCount: nat
    var edsolCount: nat
    var unqSols: set<string>

    ghost function State(): Stats
      reads this
    {
      Stats(solCount, dsolCount, esolCount, edsolCount, unqSols)
    }

    /** Besides StatsOk: raw mode never records a key nor an essentially unique solution. */
    ghost predicate Valid()
      reads this
    {
      StatsOk(State()) && (raw ==> unqSols == {} && esolCount == 0 && edsolCount == 0)
    }

    constructor (raw: bool)
      ensures this.raw == raw && State() == Zero() && Valid()
    {
      this.raw := raw;
      solCount, dsolCount, esolCount, edsolCount := 0, 0, 0, 0;
      unqSols := {};
    }

    method OutputSolKey(key: string, det: bool)
      modifies this
      ensures State() == AfterKey(old(State()), key, det, raw)
    {
      if raw || key !in unqSols {
        solCount := solCount + 1;
        if det {
          dsolCount := dsolCount + 1;
        }
        if !raw {
          unqSols := unqSols + {key};
        }
      }
    }

    /** Records one solution given its four keys, unflipped first. */
    method OutputSolution(k1: string, k2: string, k3: string, k4: string, det: bool)
      requires Valid()
      requires |k1| == Cells && k2 == Orient(k1, false, true) && k3 == Orient(k1, true, false) && k4 == Orient(k1, true, true)
      modifies this
      ensures Valid() && Grows(old(State()), State())
      ensures State() == AfterSolution(old(State()), [k1, k2, k3, k4], det, raw)
      ensures State() == AfterBoard(old(State()), k1, det, raw)
    {
      ghost var s := State();
      KeySetOfFour(k1, k2, k3, k4);
      if !raw && k1 !in unqSols && k2 !in unqSols && k3 !in unqSols && k4 !in unqSols {
        esolCount := esolCount + 1;
        if det {
          edsolCount := edsolCount + 1;
        }
      }
      assert State() == Essential(s, [k1, k2, k3, k4], det, raw);
      OutputSolKey(k1, det);
      OutputSolKey(k2, det);
      OutputSolKey(k3, det);
      OutputSolKey(k4, det);
      AfterFourKeys(Essential(s, [k1, k2, k3, k4], det, raw), k1, k2, k3, k4, det, raw);
      OrientIdentity(k1);
      assert OrbitKeys(k1) == [k1, k2, k3, k4];
      AfterBoardOk(s, k1, det, raw);
      if raw {
        RawEffect(s, [k1, k2, k3, k4], det);
      }
    }
  }
}

=== FILE: engine.dfy ===
/**
 * The backtracking placement engine of torto: the board, occupancy and
 * crumb arrays it changes in place, the recursive placement of one letter,
 * the top-level search over the seed cells, and the emitter calls that
 * record each complete placement.
 *
 * The arrays are tied to a ghost list `ps` of the paths of the words placed
 * so far (the last one still being extended): the crumbs are the stamps of
 * those paths, the occupancy is how many paths cover each cell, and each
 * covered cell holds the letter every covering word puts there.
 */
module Engine {
  import opened Grid
  import opened Trail
  import opened Dedup
  import opened Partition

  function Abs(x: int): nat {
    if x < 0 then -x else x
  }

  /** The word list main hands to the search: one to MAX_WORDS C strings, none empty. */
  predicate WordsOk(words: seq<string>) {
    1 <= |words| <= MaxWords &&
    forall v :: 0 <= v < |words| ==> |words[v]| >= 1 && '\0' !in words[v]
  }

  /**
   * A complete, legal placement of all words: each word traces a legal path
   * of its own length, and where two letters share a cell they are equal.
   */
  ghost predicate Solution(words: seq<string>, ps: seq<seq<Cell>>) {
    |ps| == |words| && Fits(words, ps) &&
    (forall v :: 0 <= v < |ps| ==> Walk(ps[v]) && |ps[v]| == |words[v]|) &&
    (forall v, k, v', k' ::
       0 <= v < |ps| && 0 <= k < |ps[v]| && 0 <= v' < |ps| && 0 <= k' < |ps[v']| && ps[v][k] == ps[v'][k']
       ==> words[v][k] == words[v'][k'])
  }

  /**
   * The tests a step passes in rec_torto make it a legal continuation of the
   * word's path: the target is in the grid, next to the last cell and not
   * stamped, and for a diagonal step the stamps of the two cells it passes
   * between do not differ by exactly 1, which is to say those cells are not
   * consecutive on the path, so the step cuts no corner of it.
   */
  lemma StepKeepsWalk(p: seq<Cell>, y: Cell)
    requires Walk(p) && p != [] && InGrid(y) && Adjacent(Last(p), y) && Stamp(p, y) == 0
    requires Diagonal(Last(p), y) ==>
      Abs(Stamp(p, CornerB(Last(p), y)) - Stamp(p, CornerA(Last(p), y))) != 1
    ensures Walk(p + [y])
  {
    WalkPrefix(p, y);
    StampZero(p, y);
    WalkDistinct(p);
    StampsDifferByOne(p, CornerA(Last(p), y), CornerB(Last(p), y));
  }

  /** No more paths than words, and no path longer than its word. */
  ghost predicate Fits(words: seq<string>, ps: seq<seq<Cell>>) {
    |ps| <= |words| && forall v :: 0 <= v < |ps| ==> |ps[v]| <= |words[v]|
  }

  /**
   * The letter the paths `ps` put on `c`: that of the last word whose path
   * runs through `c`, or '.' when none does.
   */
  ghost function Letter(words: seq<string>, ps: seq<seq<Cell>>, c: Cell): char
    requires Fits(words, ps)
    decreases |ps|
  {
    if ps == [] then '.'
    else
      var v := |ps| - 1;
      var s := Stamp(ps[v], c);
      if s != 0 then words[v][s - 2] else Letter(words, ps[..v], c)
  }

  /**
   * Letter `n` of the last word of `ps` may go on `c`: the word's path stays
   * legal, and `c` is free or already shows that letter.
   */
  ghost predicate CanPlace(words: seq<string>, ps: seq<seq<Cell>>, n: int, c: Cell)
    requires Fits(words, ps) && ps != [] && 0 <= n < |words[|ps| - 1]|
  {
    Walk(ps[|ps| - 1] + [c]) && (Cover(ps, c) == 0 || Letter(words, ps, c) == words[|ps| - 1][n])
  }

  /** The board a placement leaves, row by row, as the unflipped key reads it. */
  ghost function BoardOf(words: seq<string>, ps: seq<seq<Cell>>): (g: string)
    requires Fits(words, ps)
    ensures |g| == Cells
  {
    seq(Cells, k requires 0 <= k < Cells => Letter(words, ps, Cell(k / Cols, k % Cols)))
  }

  /**
   * Letter shows '.' on a cell no path covers, and otherwise the letter that
   * some word has at a position on that cell.
   */
  lemma {:induction false} LetterSource(words: seq<string>, ps: seq<seq<Cell>>, c: Cell) returns (v: int, k: int)
    requires Fits(words, ps)
    decreases |ps|
    ensures (Letter(words, ps, c) == '.' && Cover(ps, c) == 0) ||
      (0 <= v < |ps| && 0 <= k < |ps[v]| && ps[v][k] == c && Letter(words, ps, c) == words[v][k])
  {
    v, k := 0, 0;
    if ps != [] {
      var u := |ps| - 1;
      if Stamp(ps[u], c) != 0 {
        StampHit(ps[u], c);
        v, k := u, Stamp(ps[u], c) - 2;
      } else {
        StampZero(ps[u], c);
        v, k := LetterSource(words, ps[..u], c);
        if Letter(words, ps[..u], c) == '.' && Cover(ps[..u], c) == 0 {
          CoverZero(ps[..u], c);
          CoverZero(ps, c);
        }
      }
    }
  }

  /**
   * The emitter's state after it is handed the placements `sols` in order:
   * each one's board and whether that board is full.
   */
  ghost function AfterPlacements(words: seq<string>, raw: bool, s: Stats, sols: seq<seq<seq<Cell>>>): Stats
    requires forall n :: 0 <= n < |sols| ==> Solution(words, sols[n])
    decreases |sols|, 1
  {
    if sols == [] then s else AfterLast(words, raw, s, sols)
  }

  /**
   * The step of AfterPlacements: the board of the last placement of `sols`
   * handed to the emitter after all the others.
   */
  ghost function AfterLast(words: seq<string>, raw: bool, s: Stats, sols: seq<seq<seq<Cell>>>): Stats
    requires sols != [] && forall n :: 0 <= n < |sols| ==> Solution(words, sols[n])
    decreases |sols|, 0
  {
    var p := sols[|sols| - 1];
    SolutionFits(words, p);
    AfterBoard(AfterPlacements(words, raw, s, sols[..|sols| - 1]), BoardOf(words, p), Covered(p), raw)
  }

  lemma SolutionFits(words: seq<string>, ps: seq<seq<Cell>>)
    requires Solution(words, ps)
    ensures Fits(words, ps)
  {
  }

  lemma AfterPlacementsSnoc(words: seq<string>, raw: bool, s: Stats, sols: seq<seq<seq<Cell>>>, p: seq<seq<Cell>>)
    requires (forall n :: 0 <= n < |sols| ==> Solution(words, sols[n])) && Solution(words, p)
    ensures AfterPlacements(words, raw, s, sols + [p])
      == AfterBoard(AfterPlacements(words, raw, s, sols), BoardOf(words, p), Covered(p), raw)
  {
    assert (sols + [p])[..|sols|] == sols;
  }

  /**
   * When the words have fewer letters than the grid has cells, no placement
   * covers the grid, so the determinate counters never move.
   */
  lemma {:induction false} ShortWordsNeverDeterminate(words: seq<string>, raw: bool, s: Stats, sols: seq<seq<seq<Cell>>>)
    requires SumLengths(words) < Cells
    requires forall n :: 0 <= n < |sols| ==> Solution(words, sols[n])
    decreases |sols|
    ensures AfterPlacements(words, raw, s, sols).dsol == s.dsol
    ensures AfterPlacements(words, raw, s, sols).edsol == s.edsol
  {
    if sols != [] {
      var n := |sols| - 1;
      var p := sols[n];
      ShortWordsNeverDeterminate(words, raw, s, sols[..n]);
      SumLengthsMatch(p, words);
      if Covered(p) {
        CoveredLength(p);
      }
      var t := AfterPlacements(words, raw, s, sols[..n]);
      if raw {
        RawEffect(t, OrbitKeys(BoardOf(words, p)), false);
      } else {
        SolutionEffect(t, OrbitKeys(BoardOf(words, p)), false);
      }
    }
  }

  /**
   * Over the same placements raw mode counts at least as many solutions, and
   * determinate ones, as deduplication does.
   */
  lemma {:induction false} RawCountsMore(words: seq<string>, sols: seq<seq<seq<Cell>>>, r: Stats, d: Stats)
    requires forall n :: 0 <= n < |sols| ==> Solution(words, sols[n])
    requires r.sol >= d.sol && r.dsol >= d.dsol
    decreases |sols|
    ensures AfterPlacements(words, true, r, sols).sol >= AfterPlacements(words, false, d, sols).sol
    ensures AfterPlacements(words, true, r, sols).dsol >= AfterPlacements(words, false, d, sols).dsol
  {
    if sols != [] {
      var n := |sols| - 1;
      var p := sols[n];
      RawCountsMore(words, sols[..n], r, d);
      RawCountsEveryKey(AfterPlacements(words, true, r, sols[..n]), AfterPlacements(words, false, d, sols[..n]),
        BoardOf(words, p), Covered(p));
    }
  }

  /**
   * Placement `p` continues the partial placement `ps`: the same complete
   * words, and a path for ps's last word that begins with ps's path.
   */
  ghost predicate Extends(p: seq<seq<Cell>>, ps: seq<seq<Cell>>) {
    0 < |ps| <= |p| && p[..|ps| - 1] == ps[..|ps| - 1] && ps[|ps| - 1] <= p[|ps| - 1]
  }

  /** Every placement from position `from` on continues `ps`. */
  ghost predicate AllExtend(sols: seq<seq<seq<Cell>>>, from: nat, ps: seq<seq<Cell>>) {
    forall n :: from <= n < |sols| ==> Extends(sols[n], ps)
  }

  /** Every placement from position `from` on has letter `k` of word `v` on cell `c`. */
  ghost predicate AllNext(sols: seq<seq<seq<Cell>>>, from: nat, v: nat, k: nat, c: Cell) {
    forall m :: from <= m < |sols| ==> v < |sols[m]| && k < |sols[m][v]| && sols[m][v][k] == c
  }

  /** Every placement from position `from` on starts word 0 on a seed cell (the quarter, by SeedsAreQuarter). */
  ghost predicate Seeded(sols: seq<seq<seq<Cell>>>, from: nat) {
    forall n :: from <= n < |sols| ==> sols[n] != [] && sols[n][0] != [] && InQuarter(sols[n][0][0])
  }

  /** Starting the next word at `c` continues the placement. */
  lemma NextWordExtends(ps: seq<seq<Cell>>, c: Cell)
    requires ps != []
    ensures var qs := ps + [[]]; Extends(qs[|ps| := qs[|ps|] + [c]], ps)
  {
    var qs := ps + [[]];
    var next := qs[|ps| := qs[|ps|] + [c]];
    assert next[..|ps| - 1] == ps[..|ps| - 1];
    assert next[|ps| - 1] == ps[|ps| - 1];
  }

  /** Appending a cell to the last word's path continues the placement. */
  lemma StepExtends(ps: seq<seq<Cell>>, c: Cell)
    requires ps != []
    ensures Extends(ps[|ps| - 1 := ps[|ps| - 1] + [c]], ps)
  {
    var next := ps[|ps| - 1 := ps[|ps| - 1] + [c]];
    assert next[..|ps| - 1] == ps[..|ps| - 1];
  }

  /**
   * Placements that continue `ps` with `c` appended to its last word `w`
   * continue `ps` and put letter |ps[w]| of word `w` on `c`.
   */
  lemma AllExtendStep(sols: seq<seq<seq<Cell>>>, from: nat, ps: seq<seq<Cell>>, w: int, c: Cell)
    requires 0 <= w == |ps| - 1 && AllExtend(sols, from, ps[w := ps[w] + [c]])
    ensures AllExtend(sols, from, ps) && AllNext(sols, from, w, |ps[w]|, c)
  {
    StepExtends(ps, c);
    AllExtendTrans(sols, from, ps[w := ps[w] + [c]], ps);
    forall m | from <= m < |sols| ensures w < |sols[m]| && |ps[w]| < |sols[m][w]| && sols[m][w][|ps[w]|] == c {
      assert Extends(sols[m], ps[w := ps[w] + [c]]);
      assert (ps[w] + [c])[|ps[w]|] == c;
    }
  }

  lemma ExtendsTrans(p: seq<seq<Cell>>, qs: seq<seq<Cell>>, ps: seq<seq<Cell>>)
    requires Extends(p, qs) && Extends(qs, ps)
    ensures Extends(p, ps)
  {
    var m := |ps| - 1;
    if |ps| < |qs| {
      assert p[m] == qs[m] by {
        assert p[..|qs| - 1][m] == qs[..|qs| - 1][m];
      }
    }
    assert p[..m] == qs[..|qs| - 1][..m];
  }

  lemma AllExtendTrans(sols: seq<seq<seq<Cell>>>, from: nat, qs: seq<seq<Cell>>, ps: seq<seq<Cell>>)
    requires AllExtend(sols, from, qs) && Extends(qs, ps)
    ensures AllExtend(sols, from, ps)
  {
    forall n | from <= n < |sols| ensures Extends(sols[n], ps) {
      ExtendsTrans(sols[n], qs, ps);
    }
  }

  /** The placements emitted in two runs one after the other all continue `ps` if those of each run do. */
  lemma AllExtendJoin(s1: seq<seq<seq<Cell>>>, s2: seq<seq<seq<Cell>>>, from: nat, ps: seq<seq<Cell>>)
    requires s1 <= s2 && from <= |s1| && AllExtend(s1, from, ps) && AllExtend(s2, |s1|, ps)
    ensures AllExtend(s2, from, ps)
  {
    forall n | from <= n < |s2| ensures Extends(s2[n], ps) {
      if n < |s1| {
        assert s2[n] == s1[n];
      }
    }
  }

  lemma SeededJoin(s1: seq<seq<seq<Cell>>>, s2: seq<seq<seq<Cell>>>, from: nat)
    requires s1 <= s2 && from <= |s1| && Seeded(s1, from) && Seeded(s2, |s1|)
    ensures Seeded(s2, from)
  {
    forall n | from <= n < |s2| ensures s2[n] != [] && s2[n][0] != [] && InQuarter(s2[n][0][0]) {
      if n < |s1| {
        assert s2[n] == s1[n];
      }
    }
  }

  /** Seeded placements start word 0 on a cell of Seeds(). */
  lemma SeededInSeeds(sols: seq<seq<seq<Cell>>>, from: nat)
    requires Seeded(sols, from)
    ensures forall n :: from <= n < |sols| ==> sols[n] != [] && sols[n][0] != [] && sols[n][0][0] in Seeds()
  {
    forall n | from <= n < |sols| ensures sols[n] != [] && sols[n][0] != [] && sols[n][0][0] in Seeds() {
      SeedsAreQuarter(sols[n][0][0]);
    }
  }

  /** Placements that continue the one-cell start `[[c]]` start word 0 at `c`. */
  lemma SeededAt(sols: seq<seq<seq<Cell>>>, from: nat, c: Cell)
    requires AllExtend(sols, from, [[c]]) && InQuarter(c)
    ensures Seeded(sols, from)
  {
    forall n | from <= n < |sols| ensures sols[n] != [] && sols[n][0] != [] && InQuarter(sols[n][0][0]) {
      assert Extends(sols[n], [[c]]);
      assert [c] <= sols[n][0];
    }
  }

  /** Letter `l` of word `w` placed at `x`, on top of the paths `ps`. */
  datatype Entry = Entry(ps: seq<seq<Cell>>, w: int, l: int, x: Cell)

  class Torto {
    const words: seq<string>
    const parCnt: nat
    const parIdx: nat
    /** The hash state shared by the whole search (a function-local static). */
    var h: nat
    const board: array2<char>
    const occupancy: array2<int>
    const crumbs: array3<int>
    const tally: Tally
    /** Every placement handed to the emitter so far. */
    ghost var solutions: seq<seq<seq<Cell>>>
    /** The cells the search has started word 0 at so far, in order. */
    ghost var tried: seq<Cell>

    /** The arrays have the exact board dimensions; crumbs has one layer per possible word. */
    predicate Shape() {
      board.Length0 == Rows && board.Length1 == Cols &&
      occupancy.Length0 == Rows && occupancy.Length1 == Cols &&
      crumbs.Length0 == MaxWords && crumbs.Length1 == Rows && crumbs.Length2 == Cols
    }

    ghost predicate Valid()
      reads this`h, this`solutions, tally
    {
      Shape() && WordsOk(words) && PartitionOk(parCnt, parIdx) && h < Modulus && tally.Valid() &&
      (forall n :: 0 <= n < |solutions| ==> Solution(words, solutions[n])) &&
      tally.State() == AfterPlacements(words, tally.raw, Zero(), solutions)
    }

    /**
     * The paths of words 0..|ps|-1: each legal, in the grid and no longer
     * than its word, and all but the last one complete.
     */
    ghost predicate Placement(ps: seq<seq<Cell>>) {
      0 < |ps| <= |words| &&
      (forall v :: 0 <= v < |ps| ==> Walk(ps[v]) && |ps[v]| <= |words[v]|) &&
      (forall v :: 0 <= v < |ps| - 1 ==> |ps[v]| == |words[v]|) &&
      (forall v, k :: 0 <= v < |ps| && 0 <= k < |ps[v]| ==> InGrid(ps[v][k]))
    }

    /** Layer `v` of crumbs holds the stamps of path `v`, and layers of words not started are 0. */
    ghost predicate CrumbsOk(ps: seq<seq<Cell>>)
      reads crumbs
    {
      Shape() &&
      forall v, a, b :: 0 <= v < MaxWords && 0 <= a < Rows && 0 <= b < Cols ==>
        crumbs[v, a, b] == (if v < |ps| then Stamp(ps[v], Cell(a, b)) else 0)
    }

    /** Occupancy counts the paths covering each cell. */
    ghost predicate CoverOk(ps: seq<seq<Cell>>)
      reads occupancy
    {
      Shape() &&
      forall a, b :: 0 <= a < Rows && 0 <= b < Cols ==> occupancy[a, b] == Cover(ps, Cell(a, b))
    }

    /** Each cell on a path holds that word's letter. */
    ghost predicate LettersOk(ps: seq<seq<Cell>>)
      requires Placement(ps)
      reads board
    {
      Shape() &&
      forall v, k :: 0 <= v < |ps| && 0 <= k < |ps[v]| ==> board[ps[v][k].i, ps[v][k].j] == words[v][k]
    }

    ghost predicate Stamped(ps: seq<seq<Cell>>)
      requires Placement(ps)
      reads board, occupancy, crumbs
    {
      CrumbsOk(ps) && CoverOk(ps) && LettersOk(ps)
    }

    /** What board_key reads at a cell: its letter when covered, '.' otherwise. */
    ghost function Shown(c: Cell): char
      requires Shape() && InGrid(c)
      reads board, occupancy
    {
      if occupancy[c.i, c.j] != 0 then board[c.i, c.j] else '.'
    }

    /** The board row by row, as the unflipped key shows it. */
    ghost function View(): (g: seq<char>)
      requires Shape()
      reads board, occupancy
      ensures |g| == Cells
    {
      seq(Cells, k requires 0 <= k < Cells reads board, occupancy => Shown(Cell(k / Cols, k % Cols)))
    }

    /**
     * board_key's reading of a cell: the key shows '.' at a cell no word
     * covers, and the cell's letter at a covered one.
     */
    lemma ViewAt(i: int, j: int)
      requires Shape() && 0 <= i < Rows && 0 <= j < Cols
      ensures occupancy[i, j] == 0 ==> View()[Index(i, j)] == '.'
      ensures occupancy[i, j] != 0 ==> View()[Index(i, j)] == board[i, j]
    {
    }

    /** What the key with the given flips shows at position (i, j). */
    lemma ViewMirror(k: int, i: int, j: int, flipy: bool, flipx: bool)
      requires Shape() && 0 <= i < Rows && 0 <= j < Cols && k == i * Cols + j
      ensures var y, x := (if flipy then Rows - 1 - i else i), (if flipx then Cols - 1 - j else j);
        View()[Mirror(k, flipy, flipx)] == (if occupancy[y, x] != 0 then board[y, x] else '.')
    {
      var y, x := (if flipy then Rows - 1 - i else i), (if flipx then Cols - 1 - j else j);
      assert Mirror(Index(i, j), flipy, flipx) == Index(y, x);
      ViewAt(y, x);
    }

    /** Every cell is covered by some word. */
    ghost predicate Full()
      requires Shape()
      reads occupancy
    {
      forall a, b :: 0 <= a < Rows && 0 <= b < Cols ==> occupancy[a, b] != 0
    }

    constructor (words: seq<string>, parCnt: nat, parIdx: nat, raw: bool)
      requires WordsOk(words) && PartitionOk(parCnt, parIdx)
      ensures this.words == words && this.parCnt == parCnt && this.parIdx == parIdx
      ensures Valid() && Placement([[]]) && Stamped([[]]) && h == 0
      ensures tally.raw == raw && tally.State() == Zero() && solutions == [] && tried == []
      ensures fresh(board) && fresh(occupancy) && fresh(crumbs) && fresh(tally)
    {
      this.words := words;
      this.parCnt := parCnt;
      this.parIdx := parIdx;
      h := 0;
      board := new char[Rows, Cols]((a, b) => '\0');
      occupancy := new int[Rows, Cols]((a, b) => 0);
      crumbs := new int[MaxWords, Rows, Cols]((v, a, b) => 0);
      tally := new Tally(raw);
      solutions := [];
      tried := [];
      new;
      ClearIsStamped();
    }

    // ------------------------------------------------------ ghost bookkeeping

    /** Cleared arrays describe the placement in which word 0 has no cell yet. */
    lemma ClearIsStamped()
      requires Shape() && WordsOk(words)
      requires forall a, b :: 0 <= a < Rows && 0 <= b < Cols ==> occupancy[a, b] == 0
      requires forall v, a, b :: 0 <= v < MaxWords && 0 <= a < Rows && 0 <= b < Cols ==> crumbs[v, a, b] == 0
      ensures Placement([[]]) && Stamped([[]])
    {
      forall v, a, b | 0 <= v < MaxWords && 0 <= a < Rows && 0 <= b < Cols
        ensures crumbs[v, a, b] == (if v < 1 then Stamp([], Cell(a, b)) else 0)
      {
        StampZero([], Cell(a, b));
      }
    }

    /** Word `|ps|` can be started once the last word of `ps` is complete. */
    lemma PlacementAppendEmpty(ps: seq<seq<Cell>>)
      requires Placement(ps) && |ps| < |words| && |ps[|ps| - 1]| == |words[|ps| - 1]|
      ensures Placement(ps + [[]])
    {
    }

    /** A word that has not started yet leaves the arrays' meaning unchanged. */
    lemma StampedAppendEmpty(ps: seq<seq<Cell>>)
      requires Placement(ps) && Placement(ps + [[]]) && Stamped(ps)
      ensures Stamped(ps + [[]])
    {
      var qs := ps + [[]];
      forall a, b | 0 <= a < Rows && 0 <= b < Cols ensures occupancy[a, b] == Cover(qs, Cell(a, b)) {
        CoverAppendEmpty(ps, Cell(a, b));
      }
      forall v, k | 0 <= v < |qs| && 0 <= k < |qs[v]| ensures board[qs[v][k].i, qs[v][k].j] == words[v][k] {
        assert qs[v] == ps[v];
      }
    }

    lemma StampedDropEmpty(ps: seq<seq<Cell>>)
      requires Placement(ps) && Placement(ps + [[]]) && Stamped(ps + [[]])
      ensures Stamped(ps)
    {
      var qs := ps + [[]];
      forall a, b | 0 <= a < Rows && 0 <= b < Cols ensures occupancy[a, b] == Cover(ps, Cell(a, b)) {
        CoverAppendEmpty(ps, Cell(a, b));
      }
      forall v, a, b | 0 <= v < MaxWords && 0 <= a < Rows && 0 <= b < Cols
        ensures crumbs[v, a, b] == (if v < |ps| then Stamp(ps[v], Cell(a, b)) else 0)
      {
        if v < |ps| {
          assert qs[v] == ps[v];
        }
      }
      forall v, k | 0 <= v < |ps| && 0 <= k < |ps[v]| ensures board[ps[v][k].i, ps[v][k].j] == words[v][k] {
        assert qs[v] == ps[v];
      }
    }

    /** A placement of every word that the arrays agree with is a solution of the puzzle. */
    lemma CompleteIsSolution(ps: seq<seq<Cell>>)
      requires Placement(ps) && LettersOk(ps)
      requires |ps| == |words| && |ps[|ps| - 1]| == |words[|ps| - 1]|
      ensures Solution(words, ps)
    {
      forall v, k, v', k' |
        0 <= v < |ps| && 0 <= k < |ps[v]| && 0 <= v' < |ps| && 0 <= k' < |ps[v']| && ps[v][k] == ps[v'][k']
        ensures words[v][k] == words[v'][k']
      {
        assert board[ps[v][k].i, ps[v][k].j] == words[v][k];
        assert board[ps[v'][k'].i, ps[v'][k'].j] == words[v'][k'];
      }
    }

    /**
     * While word `v` is placed, a non-zero crumb `k + 2` on a cell says that
     * the cell is letter `k` of the word: the cell is covered and holds
     * `words[v][k]`.
     */
    lemma CrumbNamesLetter(ps: seq<seq<Cell>>, v: int, a: int, b: int)
      requires WordsOk(words) && Placement(ps) && Stamped(ps)
      requires 0 <= v < |ps| && 0 <= a < Rows && 0 <= b < Cols && crumbs[v, a, b] != 0
      ensures 2 <= crumbs[v, a, b] <= |ps[v]| + 1
      ensures ps[v][crumbs[v, a, b] - 2] == Cell(a, b)
      ensures occupancy[a, b] > 0 && board[a, b] == words[v][crumbs[v, a, b] - 2]
    {
      var c := Cell(a, b);
      CrumbNamesCell(ps, v, c);
      var k := crumbs[v, a, b] - 2;
      assert c in ps[v];
      CoverPositive(ps, v, c);
      assert board[ps[v][k].i, ps[v][k].j] == words[v][k];
    }

    /** A non-zero crumb `k + 2` of word `v` on a cell says that the cell is letter `k` of the word's path. */
    lemma CrumbNamesCell(ps: seq<seq<Cell>>, v: int, c: Cell)
      requires WordsOk(words) && 0 <= v < |ps| <= |words| && CrumbsOk(ps) && InGrid(c)
      requires crumbs[v, c.i, c.j] != 0
      ensures 2 <= crumbs[v, c.i, c.j] <= |ps[v]| + 1 && ps[v][crumbs[v, c.i, c.j] - 2] == c
    {
      CrumbIsStamp(ps, v, c);
      StampHit(ps[v], c);
    }

    lemma CrumbIsStamp(ps: seq<seq<Cell>>, v: int, c: Cell)
      requires WordsOk(words) && CrumbsOk(ps) && 0 <= v < |ps| <= |words| && InGrid(c)
      ensures crumbs[v, c.i, c.j] == Stamp(ps[v], c)
    {
    }

    /** Cells carrying crumbs `m` and `m + 1` of the same word are 8-neighbours. */
    lemma ConsecutiveCrumbsAdjacent(ps: seq<seq<Cell>>, v: int, a: int, b: int, a': int, b': int)
      requires WordsOk(words) && 0 <= v < |ps| <= |words| && Walk(ps[v]) && CrumbsOk(ps)
      requires 0 <= a < Rows && 0 <= b < Cols && 0 <= a' < Rows && 0 <= b' < Cols
      requires crumbs[v, a, b] != 0 && crumbs[v, a', b'] == crumbs[v, a, b] + 1
      ensures Adjacent(Cell(a, b), Cell(a', b'))
    {
      CrumbIsStamp(ps, v, Cell(a, b));
      CrumbIsStamp(ps, v, Cell(a', b'));
      StampHit(ps[v], Cell(a, b));
      StampHit(ps[v], Cell(a', b'));
      WalkAdjacent(ps[v], crumbs[v, a, b] - 2);
    }

    /** The board as the keys show it is unchanged when occupancy is, and every covered cell keeps its letter. */
    twostate lemma ViewRestored()
      requires Shape()
      requires forall a, b :: 0 <= a < Rows && 0 <= b < Cols ==> occupancy[a, b] == old(occupancy[a, b])
      requires forall a, b :: 0 <= a < Rows && 0 <= b < Cols && occupancy[a, b] != 0 ==> board[a, b] == old(board[a, b])
      ensures View() == old(View())
    {
      forall k | 0 <= k < Cells ensures View()[k] == old(View())[k] {
        assert Index(k / Cols, k % Cols) == k;
      }
    }

    /**
     * While the arrays describe a placement, board_key reads the board that
     * placement leaves, and is_determinate holds exactly when its paths
     * cover the grid.
     */
    lemma ViewIsBoard(ps: seq<seq<Cell>>)
      requires Placement(ps) && Stamped(ps)
      ensures Fits(words, ps) && View() == BoardOf(words, ps) && (Full() <==> Covered(ps))
    {
      forall k | 0 <= k < Cells ensures View()[k] == BoardOf(words, ps)[k] {
        var c := Cell(k / Cols, k % Cols);
        var v, m := LetterSource(words, ps, c);
        if !(Letter(words, ps, c) == '.' && Cover(ps, c) == 0) {
          assert board[ps[v][m].i, ps[v][m].j] == words[v][m];
          CoverPositive(ps, v, c);
        }
      }
    }

    // ------------------------------------------------------------- search

    /**
     * Places letter `l` of word `w` at (i, j), continues the search from
     * there, and undoes its changes: on return occupancy and crumbs are as
     * they were, and the board differs only at cells no word covers.
     */
    method RecTorto(w: int, l: int, i: int, j: int, ghost ps: seq<seq<Cell>>)
      requires Valid() && Placement(ps) && Stamped(ps)
      requires w == |ps| - 1 && l == |ps[w]| && l < |words[w]|
      requires 0 <= i < Rows && 0 <= j < Cols && Walk(ps[w] + [Cell(i, j)])
      requires occupancy[i, j] == 0 || board[i, j] == words[w][l]
      modifies this, board, occupancy, crumbs, tally
      decreases |words| - w, |words[w]| - l, 5
      ensures Valid() && Stamped(ps)
      ensures forall a, b :: 0 <= a < Rows && 0 <= b < Cols ==> occupancy[a, b] == old(occupancy[a, b])
      ensures forall v, a, b :: 0 <= v < MaxWords && 0 <= a < Rows && 0 <= b < Cols ==>
        crumbs[v, a, b] == old(crumbs[v, a, b])
      ensures forall a, b :: 0 <= a < Rows && 0 <= b < Cols && occupancy[a, b] != 0 ==>
        board[a, b] == old(board[a, b])
      ensures View() == old(View())
      ensures Grows(old(tally.State()), tally.State()) && old(solutions) <= solutions
      ensures w > 0 ==> h == old(h)
      ensures AllExtend(solutions, |old(solutions)|, ps[w := ps[w] + [Cell(i, j)]])
      ensures l + 1 == |words[w]| && w == |words| - 1 ==>
        var qs := ps[w := ps[w] + [Cell(i, j)]];
        solutions == old(solutions) + [qs] &&
        tally.State() == AfterBoard(old(tally.State()), BoardOf(words, qs), Covered(qs), tally.raw)
      ensures tried == old(tried) + (if w == 0 && l == 0 then [Cell(i, j)] else [])
    {
      if w == 0 && l == 0 {
        tried := tried + [Cell(i, j)];
      }
      Place(w, l, i, j, ps);
    }

    /** RecTorto apart from the log entry: places the letter, continues the search and undoes its changes. */
    method Place(w: int, l: int, i: int, j: int, ghost ps: seq<seq<Cell>>)
      requires Valid() && Placement(ps) && Stamped(ps)
      requires w == |ps| - 1 && l == |ps[w]| && l < |words[w]|
      requires 0 <= i < Rows && 0 <= j < Cols && Walk(ps[w] + [Cell(i, j)])
      requires occupancy[i, j] == 0 || board[i, j] == words[w][l]
      modifies this, board, occupancy, crumbs, tally
      decreases |words| - w, |words[w]| - l, 4
      ensures Valid() && Stamped(ps)
      ensures forall a, b :: 0 <= a < Rows && 0 <= b < Cols ==> occupancy[a, b] == old(occupancy[a, b])
      ensures forall v, a, b :: 0 <= v < MaxWords && 0 <= a < Rows && 0 <= b < Cols ==>
        crumbs[v, a, b] == old(crumbs[v, a, b])
      ensures forall a, b :: 0 <= a < Rows && 0 <= b < Cols && occupancy[a, b] != 0 ==>
        board[a, b] == old(board[a, b])
      ensures View() == old(View())
      ensures Grows(old(tally.State()), tally.State()) && old(solutions) <= solutions
      ensures w > 0 ==> h == old(h)
      ensures AllExtend(solutions, |old(solutions)|, ps[w := ps[w] + [Cell(i, j)]])
      ensures l + 1 == |words[w]| && w == |words| - 1 ==>
        var qs := ps[w := ps[w] + [Cell(i, j)]];
        solutions == old(solutions) + [qs] &&
        tally.State() == AfterBoard(old(tally.State()), BoardOf(words, qs), Covered(qs), tally.raw)
      ensures tried == old(tried)
    {
      ghost var qs := ps[w := ps[w] + [Cell(i, j)]];
      Enter(w, l, i, j, ps);
      ViewIsBoard(qs);
      AfterLetter(w, l, i, j, qs);
      Leave(w, l, i, j, ps);
      Restored(ps);
      ViewRestored();
    }

    /**
     * What rec_torto does once letter `l` of word `w` is on (i, j): extends
     * the word if it has more letters, hands a complete placement to the
     * emitter after the last word, and otherwise starts the next word.
     */
    method AfterLetter(w: int, l: int, i: int, j: int, ghost ps: seq<seq<Cell>>)
      requires Valid() && Placement(ps) && Stamped(ps)
      requires w == |ps| - 1 && 0 <= l < |words[w]| && l + 1 == |ps[w]| && Last(ps[w]) == Cell(i, j)
      modifies this, board, occupancy, crumbs, tally
      decreases |words| - w, |words[w]| - l, 3
      ensures Valid() && Stamped(ps)
      ensures Grows(old(tally.State()), tally.State()) && old(solutions) <= solutions
      ensures w > 0 ==> h == old(h)
      ensures AllExtend(solutions, |old(solutions)|, ps)
      ensures tried == old(tried)
      ensures l + 1 == |words[w]| && w == |words| - 1 ==>
        solutions == old(solutions) + [ps] &&
        tally.State() == AfterBoard(old(tally.State()), old(View()), old(Full()), tally.raw)
    {
      var c := if l + 1 < |words[w]| then words[w][l + 1] else '\0';
      if c != '\0' {
        ExtendWord(w, l + 1, i, j, ps);
      } else if w == |words| - 1 {
        OutputSolution(ps);
      } else {
        StartNextWord(w, ps);
      }
    }

    /** Stamps (i, j) with `l + 2` for word `w`, writes the letter there and counts one more word covering it. */
    method Enter(w: int, l: int, i: int, j: int, ghost ps: seq<seq<Cell>>)
      requires Shape() && WordsOk(words) && Placement(ps) && Stamped(ps)
      requires w == |ps| - 1 && l == |ps[w]| && l < |words[w]|
      requires 0 <= i < Rows && 0 <= j < Cols && Walk(ps[w] + [Cell(i, j)])
      requires occupancy[i, j] == 0 || board[i, j] == words[w][l]
      modifies board, occupancy, crumbs
      ensures Placement(ps[w := ps[w] + [Cell(i, j)]]) && Stamped(ps[w := ps[w] + [Cell(i, j)]])
    {
      ghost var x := Cell(i, j);
      ghost var qs := ps[w := ps[w] + [x]];
      WalkPrefix(ps[w], x);
      CoverZero(ps, x);
      crumbs[w, i, j] := l + 2;
      board[i, j] := words[w][l];
      occupancy[i, j] := occupancy[i, j] + 1;
      assert Placement(qs);
      EnteredCrumbs(Entry(ps, w, l, x));
      EnteredCover(Entry(ps, w, l, x));
      EnteredLetters(Entry(ps, w, l, x));
    }

    /** Between two states, crumbs changed at most in layer `w` at cell `x`. */
    twostate predicate CrumbsSameExcept(w: int, x: Cell)
      requires Shape()
      reads crumbs
    {
      forall v, a, b :: 0 <= v < MaxWords && 0 <= a < Rows && 0 <= b < Cols && (v != w || Cell(a, b) != x) ==>
        crumbs[v, a, b] == old(crumbs[v, a, b])
    }

    twostate predicate OccupancySameExcept(x: Cell)
      requires Shape()
      reads occupancy
    {
      forall a, b :: 0 <= a < Rows && 0 <= b < Cols && Cell(a, b) != x ==> occupancy[a, b] == old(occupancy[a, b])
    }

    twostate predicate BoardSameExcept(x: Cell)
      requires Shape()
      reads board
    {
      forall a, b :: 0 <= a < Rows && 0 <= b < Cols && Cell(a, b) != x ==> board[a, b] == old(board[a, b])
    }

    twostate lemma EnteredCrumbs(e: Entry)
      requires Shape() && WordsOk(words)
      requires var Entry(ps, w, l, x) := e;
        Placement(ps) && old(CrumbsOk(ps)) && w == |ps| - 1 && l == |ps[w]| && InGrid(x) &&
        crumbs[w, x.i, x.j] == l + 2 && CrumbsSameExcept(w, x)
      ensures CrumbsOk(e.ps[e.w := e.ps[e.w] + [e.x]])
    {
      var Entry(ps, w, l, x) := e;
      forall v, a, b | 0 <= v < MaxWords && 0 <= a < Rows && 0 <= b < Cols
        ensures crumbs[v, a, b] == (if v < |ps| then Stamp(ps[w := ps[w] + [x]][v], Cell(a, b)) else 0)
      {
        StampStep(ps[w], x, Cell(a, b));
      }
    }

    twostate lemma EnteredCover(e: Entry)
      requires Shape() && WordsOk(words)
      requires var Entry(ps, w, l, x) := e;
        Placement(ps) && old(CoverOk(ps)) && w == |ps| - 1 && InGrid(x) && x !in ps[w] &&
        occupancy[x.i, x.j] == old(occupancy[x.i, x.j]) + 1 && OccupancySameExcept(x)
      ensures CoverOk(e.ps[e.w := e.ps[e.w] + [e.x]])
    {
      var Entry(ps, w, l, x) := e;
      forall a, b | 0 <= a < Rows && 0 <= b < Cols ensures occupancy[a, b] == Cover(ps[w := ps[w] + [x]], Cell(a, b)) {
        CoverExtend(ps, w, x, Cell(a, b));
      }
    }

    twostate lemma EnteredLetters(e: Entry)
      requires Shape() && WordsOk(words)
      requires var Entry(ps, w, l, x) := e;
        Placement(ps) && w == |ps| - 1 && l == |ps[w]| && l < |words[w]| && InGrid(x) &&
        Placement(ps[w := ps[w] + [x]]) && old(LettersOk(ps)) && old(CoverOk(ps)) &&
        (old(occupancy[x.i, x.j]) == 0 || old(board[x.i, x.j]) == words[w][l]) &&
        board[x.i, x.j] == words[w][l] && BoardSameExcept(x)
      ensures Placement(e.ps[e.w := e.ps[e.w] + [e.x]]) && LettersOk(e.ps[e.w := e.ps[e.w] + [e.x]])
    {
      var Entry(ps, w, l, x) := e;
      var qs: seq<seq<Cell>> := ps[w := ps[w] + [x]];
      CoverZero(ps, x);
      forall v, k | 0 <= v < |qs| && 0 <= k < |qs[v]| ensures board[qs[v][k].i, qs[v][k].j] == words[v][k] {
        if v != w || k < l {
          assert qs[v][k] == ps[v][k];
          if ps[v][k] == x {
            assert x in ps[v];
          }
        }
      }
    }

    /** Undoes Enter: one word fewer covers (i, j) and word `w`'s crumb there is cleared; the letter stays. */
    method Leave(w: int, l: int, i: int, j: int, ghost ps: seq<seq<Cell>>)
      requires Shape() && WordsOk(words) && Placement(ps)
      requires w == |ps| - 1 && l == |ps[w]| && 0 <= i < Rows && 0 <= j < Cols
      requires Walk(ps[w] + [Cell(i, j)])
      requires Placement(ps[w := ps[w] + [Cell(i, j)]]) && Stamped(ps[w := ps[w] + [Cell(i, j)]])
      modifies occupancy, crumbs
      ensures Stamped(ps)
    {
      ghost var x := Cell(i, j);
      ghost var qs := ps[w := ps[w] + [x]];
      WalkPrefix(ps[w], x);
      occupancy[i, j] := occupancy[i, j] - 1;
      crumbs[w, i, j] := 0;
      StampZero(ps[w], x);
      forall v, a, b | 0 <= v < MaxWords && 0 <= a < Rows && 0 <= b < Cols
        ensures crumbs[v, a, b] == (if v < |ps| then Stamp(ps[v], Cell(a, b)) else 0)
      {
        StampStep(ps[w], x, Cell(a, b));
      }
      forall a, b | 0 <= a < Rows && 0 <= b < Cols ensures occupancy[a, b] == Cover(ps, Cell(a, b)) {
        CoverExtend(ps, w, x, Cell(a, b));
      }
      forall v, k | 0 <= v < |ps| && 0 <= k < |ps[v]| ensures board[ps[v][k].i, ps[v][k].j] == words[v][k] {
        assert qs[v][k] == ps[v][k];
      }
    }

    /**
     * Two states in which the arrays describe the same placement agree on
     * occupancy and crumbs everywhere, and on the board wherever a word
     * covers the cell.
     */
    twostate lemma Restored(ps: seq<seq<Cell>>)
      requires Placement(ps) && old(Stamped(ps)) && Stamped(ps)
      ensures forall a, b :: 0 <= a < Rows && 0 <= b < Cols ==> occupancy[a, b] == old(occupancy[a, b])
      ensures forall v, a, b :: 0 <= v < MaxWords && 0 <= a < Rows && 0 <= b < Cols ==>
        crumbs[v, a, b] == old(crumbs[v, a, b])
      ensures forall a, b :: 0 <= a < Rows && 0 <= b < Cols && occupancy[a, b] != 0 ==>
        board[a, b] == old(board[a, b])
    {
      forall a, b | 0 <= a < Rows && 0 <= b < Cols && occupancy[a, b] != 0 ensures board[a, b] == old(board[a, b]) {
        var v, k := CoverWitness(ps, Cell(a, b));
      }
    }

    /** Tries the eight neighbours of (i, j) for letter `n` of word `w`, in the order N, E, NE, SE, W, NW, SW, S. */
    method ExtendWord(w: int, n: int, i: int, j: int, ghost ps: seq<seq<Cell>>)
      requires Valid() && Placement(ps) && Stamped(ps)
      requires w == |ps| - 1 && n == |ps[w]| && 0 < n < |words[w]| && Last(ps[w]) == Cell(i, j)
      modifies this, board, occupancy, crumbs, tally
      decreases |words| - w, |words[w]| - n + 1, 2
      ensures Valid() && Stamped(ps)
      ensures Grows(old(tally.State()), tally.State()) && old(solutions) <= solutions
      ensures w > 0 ==> h == old(h)
      ensures AllExtend(solutions, |old(solutions)|, ps)
      ensures tried == old(tried)
    {
      ghost var from := |solutions|;
      TryStep(w, n, i, j, i - 1, j, ps);
      ghost var before := solutions;
      TryStep(w, n, i, j, i, j + 1, ps);
      AllExtendJoin(before, solutions, from, ps);
      before := solutions;
      TryStep(w, n, i, j, i - 1, j + 1, ps);
      AllExtendJoin(before, solutions, from, ps);
      before := solutions;
      TryStep(w, n, i, j, i + 1, j + 1, ps);
      AllExtendJoin(before, solutions, from, ps);
      before := solutions;
      TryStep(w, n, i, j, i, j - 1, ps);
      AllExtendJoin(before, solutions, from, ps);
      before := solutions;
      TryStep(w, n, i, j, i - 1, j - 1, ps);
      AllExtendJoin(before, solutions, from, ps);
      before := solutions;
      TryStep(w, n, i, j, i + 1, j - 1, ps);
      AllExtendJoin(before, solutions, from, ps);
      before := solutions;
      TryStep(w, n, i, j, i + 1, j, ps);
      AllExtendJoin(before, solutions, from, ps);
    }

    /**
     * One neighbour test of rec_torto: the neighbour (y, x) of (i, j) must be
     * in the grid, free or already holding the next letter, not yet stamped
     * by this word, and for a diagonal step the crumbs of (y, j) and (i, x)
     * must not differ by exactly 1.
     */
    method TryStep(w: int, n: int, i: int, j: int, y: int, x: int, ghost ps: seq<seq<Cell>>)
      requires Valid() && Placement(ps) && Stamped(ps)
      requires w == |ps| - 1 && n == |ps[w]| && 0 < n < |words[w]| && Last(ps[w]) == Cell(i, j)
      requires Adjacent(Cell(i, j), Cell(y, x))
      modifies this, board, occupancy, crumbs, tally
      decreases |words| - w, |words[w]| - n + 1, 1
      ensures Valid() && Stamped(ps)
      ensures Grows(old(tally.State()), tally.State()) && old(solutions) <= solutions
      ensures w > 0 ==> h == old(h)
      ensures AllExtend(solutions, |old(solutions)|, ps)
      ensures AllNext(solutions, |old(solutions)|, w, n, Cell(y, x))
      ensures !CanPlace(words, ps, n, Cell(y, x)) ==>
        solutions == old(solutions) && tally.State() == old(tally.State())
      ensures tried == old(tried)
    {
      StepOpenIff(ps, w, n, i, j, y, x);
      if StepOpen(w, n, i, j, y, x) {
        OpenStep(ps, w, n, i, j, y, x);
        StepTo(w, n, y, x, ps);
        AllExtendStep(solutions, |old(solutions)|, ps, w, Cell(y, x));
      }
    }

    /** The test rec_torto puts to the neighbour (y, x) of (i, j) before placing letter `n` of word `w` there. */
    predicate StepOpen(w: int, n: int, i: int, j: int, y: int, x: int)
      requires Shape() && 0 <= w < |words| && w < MaxWords && 0 <= n < |words[w]|
      requires 0 <= i < Rows && 0 <= j < Cols
      reads board, occupancy, crumbs
    {
      0 <= y < Rows && 0 <= x < Cols && (occupancy[y, x] == 0 || board[y, x] == words[w][n]) && crumbs[w, y, x] == 0
      && (y == i || x == j || Abs(crumbs[w, y, j] - crumbs[w, i, x]) != 1)
    }

    /** Letter `n` of word `w` goes to the neighbour (y, x) that passed the test, and the search goes on from there. */
    method StepTo(w: int, n: int, y: int, x: int, ghost ps: seq<seq<Cell>>)
      requires Valid() && Placement(ps) && Stamped(ps)
      requires w == |ps| - 1 && n == |ps[w]| && 0 < n < |words[w]|
      requires 0 <= y < Rows && 0 <= x < Cols && Walk(ps[w] + [Cell(y, x)])
      requires occupancy[y, x] == 0 || board[y, x] == words[w][n]
      modifies this, board, occupancy, crumbs, tally
      decreases |words| - w, |words[w]| - n + 1, 0
      ensures Valid() && Stamped(ps)
      ensures Grows(old(tally.State()), tally.State()) && old(solutions) <= solutions
      ensures w > 0 ==> h == old(h)
      ensures AllExtend(solutions, |old(solutions)|, ps[w := ps[w] + [Cell(y, x)]])
      ensures tried == old(tried)
    {
      RecTorto(w, n, y, x, ps);
    }

    /** In a state that describes `ps`, the array test of TryStep is CanPlace. */
    lemma StepOpenIff(ps: seq<seq<Cell>>, w: int, n: int, i: int, j: int, y: int, x: int)
      requires WordsOk(words) && Placement(ps) && Stamped(ps) && w == |ps| - 1 && 0 <= n < |words[w]|
      requires ps[w] != [] && Last(ps[w]) == Cell(i, j) && Adjacent(Cell(i, j), Cell(y, x))
      ensures StepOpen(w, n, i, j, y, x) <==> CanPlace(words, ps, n, Cell(y, x))
    {
      var c := Cell(y, x);
      WalkPrefix(ps[w], c);
      if InGrid(c) {
        StepAllowed(ps, w, i, j, y, x);
        assert occupancy[y, x] == Cover(ps, c);
        var v, k := LetterSource(words, ps, c);
        if Cover(ps, c) != 0 {
          CoverZero(ps, c);
          assert board[ps[v][k].i, ps[v][k].j] == words[v][k];
        }
      }
    }

    /** A neighbour that passes the test of TryStep can take letter `n`: the step keeps the word's path legal. */
    lemma OpenStep(ps: seq<seq<Cell>>, w: int, n: int, i: int, j: int, y: int, x: int)
      requires WordsOk(words) && CrumbsOk(ps) && 0 <= w < |ps| <= |words| && 0 <= n < |words[w]|
      requires Walk(ps[w]) && ps[w] != [] && Last(ps[w]) == Cell(i, j)
      requires 0 <= i < Rows && 0 <= j < Cols && Adjacent(Cell(i, j), Cell(y, x))
      requires StepOpen(w, n, i, j, y, x)
      ensures 0 <= y < Rows && 0 <= x < Cols && Walk(ps[w] + [Cell(y, x)])
      ensures occupancy[y, x] == 0 || board[y, x] == words[w][n]
    {
      StepAllowed(ps, w, i, j, y, x);
    }

    /**
     * The crumbs test of TryStep is the test that the step keeps word `w`'s
     * path a walk: it passes exactly for the legal steps to a neighbour.
     */
    lemma StepAllowed(ps: seq<seq<Cell>>, w: int, i: int, j: int, y: int, x: int)
      requires WordsOk(words) && CrumbsOk(ps) && 0 <= w < |ps| <= |words|
      requires Walk(ps[w]) && ps[w] != [] && Last(ps[w]) == Cell(i, j)
      requires 0 <= i < Rows && 0 <= j < Cols && 0 <= y < Rows && 0 <= x < Cols
      requires Adjacent(Cell(i, j), Cell(y, x))
      ensures Walk(ps[w] + [Cell(y, x)]) <==>
        crumbs[w, y, x] == 0 && (y == i || x == j || Abs(crumbs[w, y, j] - crumbs[w, i, x]) != 1)
    {
      CrumbIsStamp(ps, w, Cell(y, x));
      CrumbIsStamp(ps, w, Cell(y, j));
      CrumbIsStamp(ps, w, Cell(i, x));
      WalkPrefix(ps[w], Cell(y, x));
      StampZero(ps[w], Cell(y, x));
      WalkDistinct(ps[w]);
      StampsDifferByOne(ps[w], Cell(i, x), Cell(y, j));
    }

    /** Word `w` is complete: tries every cell, row by row, as the start of word `w + 1`. */
    method StartNextWord(w: int, ghost ps: seq<seq<Cell>>)
      requires Valid() && Placement(ps) && Stamped(ps)
      requires w == |ps| - 1 && |ps[w]| == |words[w]| && w + 1 < |words|
      modifies this, board, occupancy, crumbs, tally
      decreases |words| - w, 0, 2
      ensures Valid() && Stamped(ps)
      ensures Grows(old(tally.State()), tally.State()) && old(solutions) <= solutions
      ensures w > 0 ==> h == old(h)
      ensures AllExtend(solutions, |old(solutions)|, ps)
      ensures tried == old(tried)
    {
      for y := 0 to Rows
        invariant Valid() && Stamped(ps)
        invariant Grows(old(tally.State()), tally.State()) && old(solutions) <= solutions
        invariant w > 0 ==> h == old(h)
        invariant AllExtend(solutions, |old(solutions)|, ps)
        invariant tried == old(tried)
      {
        for x := 0 to Cols
          invariant Valid() && Stamped(ps)
          invariant Grows(old(tally.State()), tally.State()) && old(solutions) <= solutions
          invariant w > 0 ==> h == old(h)
          invariant AllExtend(solutions, |old(solutions)|, ps)
          invariant tried == old(tried)
        {
          ghost var before := solutions;
          TryStart(w, y, x, ps);
          AllExtendJoin(before, solutions, |old(solutions)|, ps);
        }
      }
    }

    /**
     * One start cell for word `w + 1`: the cell must be free or already hold
     * its first letter; while the second word is being started (w == 0) the
     * hash advances for every such cell and only cells of partition `parIdx`
     * are explored.
     */
    method TryStart(w: int, y: int, x: int, ghost ps: seq<seq<Cell>>)
      requires Valid() && Placement(ps) && Stamped(ps)
      requires w == |ps| - 1 && |ps[w]| == |words[w]| && w + 1 < |words|
      requires 0 <= y < Rows && 0 <= x < Cols
      modifies this, board, occupancy, crumbs, tally
      decreases |words| - w, 0, 1
      ensures Valid() && Stamped(ps)
      ensures Grows(old(tally.State()), tally.State()) && old(solutions) <= solutions
      ensures w > 0 ==> h == old(h)
      ensures w == 0 && (old(occupancy[y, x]) == 0 || old(board[y, x]) == words[1][0]) ==> h == NextHash(old(h))
      ensures w == 0 && !(old(occupancy[y, x]) == 0 || old(board[y, x]) == words[1][0]) ==> h == old(h)
      ensures !(old(occupancy[y, x]) == 0 || old(board[y, x]) == words[w + 1][0]) ==>
        solutions == old(solutions) && tally.State() == old(tally.State())
      ensures w == 0 && !Selected(h, parCnt, parIdx) ==> solutions == old(solutions) && tally.State() == old(tally.State())
      ensures AllExtend(solutions, |old(solutions)|, ps)
      ensures AllExtend(solutions, |old(solutions)|, ps + [[Cell(y, x)]])
      ensures tried == old(tried)
    {
      if occupancy[y, x] == 0 || board[y, x] == words[w + 1][0] {
        var pass := true;
        if w == 0 {
          h := NextHash(h);
          pass := Selected(h, parCnt, parIdx);
        }
        if pass {
          StartWord(w, y, x, ps);
        }
      }
    }

    /** Places the first letter of word `w + 1` at (y, x) and searches on from there. */
    method StartWord(w: int, y: int, x: int, ghost ps: seq<seq<Cell>>)
      requires Valid() && Placement(ps) && Stamped(ps)
      requires w == |ps| - 1 && |ps[w]| == |words[w]| && w + 1 < |words|
      requires 0 <= y < Rows && 0 <= x < Cols && (occupancy[y, x] == 0 || board[y, x] == words[w + 1][0])
      modifies this, board, occupancy, crumbs, tally
      decreases |words| - w, 0, 0
      ensures Valid() && Stamped(ps) && h == old(h)
      ensures Grows(old(tally.State()), tally.State()) && old(solutions) <= solutions
      ensures AllExtend(solutions, |old(solutions)|, ps)
      ensures AllExtend(solutions, |old(solutions)|, ps + [[Cell(y, x)]])
      ensures tried == old(tried)
    {
      ghost var qs := ps + [[]];
      PlacementAppendEmpty(ps);
      StampedAppendEmpty(ps);
      assert qs[w + 1] + [Cell(y, x)] == [Cell(y, x)];
      RecTorto(w + 1, 0, y, x, qs);
      StampedDropEmpty(ps);
      NextWordExtends(ps, Cell(y, x));
      assert qs[w + 1 := qs[w + 1] + [Cell(y, x)]] == ps + [[Cell(y, x)]];
      AllExtendTrans(solutions, |old(solutions)|, qs[w + 1 := qs[w + 1] + [Cell(y, x)]], ps);
    }

    /** All words are placed: records the board and its three mirror images with the emitter. */
    method OutputSolution(ghost ps: seq<seq<Cell>>)
      requires Valid() && Placement(ps) && Stamped(ps)
      requires |ps| == |words| && |ps[|ps| - 1]| == |words[|ps| - 1]|
      modifies this, tally
      ensures Valid() && h == old(h)
      ensures Grows(old(tally.State()), tally.State())
      ensures tally.State() == AfterBoard(old(tally.State()), old(View()), old(Full()), tally.raw)
      ensures solutions == old(solutions) + [ps]
      ensures tried == old(tried)
    {
      CompleteIsSolution(ps);
      ViewIsBoard(ps);
      var det, k1, k2, k3, k4 := Keys();
      tally.OutputSolution(k1, k2, k3, k4, det);
      AfterPlacementsSnoc(words, tally.raw, Zero(), solutions, ps);
      solutions := solutions + [ps];
    }

    /** The first half of output_solution: whether the board is determinate, and its four keys. */
    method Keys() returns (det: bool, k1: string, k2: string, k3: string, k4: string)
      requires Shape()
      ensures det == Full() && k1 == View() && |k1| == Cells
      ensures k2 == Orient(k1, false, true) && k3 == Orient(k1, true, false) && k4 == Orient(k1, true, true)
    {
      det := IsDeterminate();
      k1 := BoardKey(false, false);
      k2 := BoardKey(false, true);
      k3 := BoardKey(true, false);
      k4 := BoardKey(true, true);
      KeysOfBoard(View(), k1, k2, k3, k4);
    }

    /** is_determinate: every cell is covered. */
    method IsDeterminate() returns (det: bool)
      requires Shape()
      ensures det <==> Full()
    {
      for i := 0 to Rows
        invariant forall a, b :: 0 <= a < i && 0 <= b < Cols ==> occupancy[a, b] != 0
      {
        for j := 0 to Cols
          invariant forall a, b :: 0 <= a < i && 0 <= b < Cols ==> occupancy[a, b] != 0
          invariant forall b :: 0 <= b < j ==> occupancy[i, b] != 0
        {
          if occupancy[i, j] == 0 {
            return false;
          }
        }
      }
      return true;
    }

    /** board_key: the board read row by row under the given flips, '.' at uncovered cells. */
    method BoardKey(flipy: bool, flipx: bool) returns (key: string)
      requires Shape()
      ensures key == Orient(View(), flipy, flipx)
    {
      key := [];
      for i := 0 to Rows
        invariant |key| == i * Cols
        invariant forall k :: 0 <= k < |key| ==> key[k] == View()[Mirror(k, flipy, flipx)]
      {
        var row := KeyRow(i, flipy, flipx);
        key := key + row;
      }
    }

    /** The inner loop of board_key: the key's row `i`, left to right. */
    method KeyRow(i: int, flipy: bool, flipx: bool) returns (row: string)
      requires Shape() && 0 <= i < Rows
      ensures |row| == Cols
      ensures forall j :: 0 <= j < Cols ==> row[j] == View()[Mirror(i * Cols + j, flipy, flipx)]
    {
      row := [];
      for j := 0 to Cols
        invariant |row| == j
        invariant forall b :: 0 <= b < j ==> row[b] == View()[Mirror(i * Cols + b, flipy, flipx)]
      {
        var y := if flipy then Rows - 1 - i else i;
        var x := if flipx then Cols - 1 - j else j;
        ViewMirror(i * Cols + j, i, j, flipy, flipx);
        row := row + [if occupancy[y, x] != 0 then board[y, x] else '.'];
      }
    }

    /**
     * torto: runs the search from each seed cell of the top-left quarter in
     * turn, row by row; the arrays end as they started.
     */
    method Search()
      requires Valid() && Stamped([[]])
      modifies this, board, occupancy, crumbs, tally
      ensures Valid() && Stamped([[]])
      ensures Grows(old(tally.State()), tally.State()) && old(solutions) <= solutions
      ensures tried == old(tried) + Seeds()
      ensures Seeded(solutions, |old(solutions)|)
    {
      SearchRows((Rows + 1) / 2, (Cols + 1) / 2);
    }

    /** The outer loop of torto: seeds of rows 0 .. m - 1, each row over columns 0 .. n - 1. */
    method SearchRows(m: int, n: int)
      requires Valid() && Stamped([[]]) && 0 <= m <= (Rows + 1) / 2 && 0 <= n <= (Cols + 1) / 2
      modifies this, board, occupancy, crumbs, tally
      ensures Valid() && Stamped([[]])
      ensures Grows(old(tally.State()), tally.State()) && old(solutions) <= solutions
      ensures tried == old(tried) + SeedRows(m, n)
      ensures Seeded(solutions, |old(solutions)|)
    {
      for i := 0 to m
        invariant Valid() && Stamped([[]])
        invariant Grows(old(tally.State()), tally.State()) && old(solutions) <= solutions
        invariant tried == old(tried) + SeedRows(i, n)
        invariant Seeded(solutions, |old(solutions)|)
      {
        NextSeedRow(i, n, old(tried), |old(solutions)|);
      }
    }

    /** One pass of torto's outer seed loop: row `i` of the seeds, after the rows before it. */
    method NextSeedRow(i: int, n: int, ghost base: seq<Cell>, ghost from: nat)
      requires Valid() && Stamped([[]]) && 0 <= i < (Rows + 1) / 2 && 0 <= n <= (Cols + 1) / 2
      requires tried == base + SeedRows(i, n) && from <= |solutions| && Seeded(solutions, from)
      modifies this, board, occupancy, crumbs, tally
      ensures Valid() && Stamped([[]])
      ensures Grows(old(tally.State()), tally.State()) && old(solutions) <= solutions
      ensures tried == base + SeedRows(i + 1, n)
      ensures Seeded(solutions, from)
    {
      ghost var before := solutions;
      SearchRow(i, n);
      SeededJoin(before, solutions, from);
      assert base + SeedRows(i + 1, n) == base + SeedRows(i, n) + SeedRow(i, n);
    }

    /** The inner loop of torto: seeds (i, 0) .. (i, n - 1), left to right. */
    method SearchRow(i: int, n: int)
      requires Valid() && Stamped([[]]) && 0 <= i < (Rows + 1) / 2 && 0 <= n <= (Cols + 1) / 2
      modifies this, board, occupancy, crumbs, tally
      ensures Valid() && Stamped([[]])
      ensures Grows(old(tally.State()), tally.State()) && old(solutions) <= solutions
      ensures tried == old(tried) + SeedRow(i, n)
      ensures Seeded(solutions, |old(solutions)|)
    {
      for j := 0 to n
        invariant Valid() && Stamped([[]])
        invariant Grows(old(tally.State()), tally.State()) && old(solutions) <= solutions
        invariant tried == old(tried) + SeedRow(i, j)
        invariant Seeded(solutions, |old(solutions)|)
      {
        NextSeed(i, j, old(tried), |old(solutions)|);
      }
    }

    /** One pass of the inner seed loop: seed (i, j) is tried after (i, 0) .. (i, j - 1). */
    method NextSeed(i: int, j: int, ghost base: seq<Cell>, ghost from: nat)
      requires Valid() && Stamped([[]]) && 0 <= i < (Rows + 1) / 2 && 0 <= j < (Cols + 1) / 2
      requires tried == base + SeedRow(i, j) && from <= |solutions| && Seeded(solutions, from)
      modifies this, board, occupancy, crumbs, tally
      ensures Valid() && Stamped([[]])
      ensures Grows(old(tally.State()), tally.State()) && old(solutions) <= solutions
      ensures tried == base + SeedRow(i, j + 1)
      ensures Seeded(solutions, from)
    {
      ghost var before := solutions;
      FromSeed(i, j);
      SeededAt(solutions, |before|, Cell(i, j));
      SeededJoin(before, solutions, from);
      assert base + SeedRow(i, j + 1) == base + SeedRow(i, j) + [Cell(i, j)];
    }

    /** One seed of torto: word 0 starts at (i, j) on an empty board. */
    method FromSeed(i: int, j: int)
      requires Valid() && Placement([[]]) && Stamped([[]]) && 0 <= i < Rows && 0 <= j < Cols
      modifies this, board, occupancy, crumbs, tally
      ensures Valid() && Stamped([[]])
      ensures Grows(old(tally.State()), tally.State()) && old(solutions) <= solutions
      ensures AllExtend(solutions, |old(solutions)|, [[Cell(i, j)]])
      ensures tried == old(tried) + [Cell(i, j)]
    {
      EmptyStart(Cell(i, j));
      RecTorto(0, 0, i, j, [[]]);
      assert [[]][0 := [] + [Cell(i, j)]] == [[Cell(i, j)]];
    }

    /** On the empty board any cell is free, and a one-cell path is a legal start. */
    lemma EmptyStart(c: Cell)
      requires CoverOk([[]]) && InGrid(c)
      ensures occupancy[c.i, c.j] == 0 && Walk([] + [c])
    {
      assert [] + [c] == [c];
      assert occupancy[c.i, c.j] == Cover([[]], c) == 0;
    }
  }

  /**
   * What main does once the flags are read: rejects a bad `-p` pair or word
   * count with -1, otherwise orders the words longest first (unless
   * presorting is disabled) and runs the search, returning the emitter's
   * final counters and seen set. The ghost results are the word order
   * searched and the placements handed to the emitter, in order: each is a
   * solution whose first word starts on a seed cell, and the counters are
   * what the emitter makes of their boards.
   */
  method Run(parCnt: nat, parIdx: nat, numWords: int, input: seq<string>, presort: bool, raw: bool)
    returns (code: int, stats: Stats, ghost order: seq<string>, ghost sols: seq<seq<seq<Cell>>>, ghost starts: seq<Cell>)
    requires WordCountOk(numWords) ==> |input| == numWords
    requires forall v :: 0 <= v < |input| ==> |input[v]| >= 1 && '\0' !in input[v]
    ensures code == -1 <==> !PartitionOk(parCnt, parIdx) || !WordCountOk(numWords)
    ensures code == -1 || code == 0
    ensures code == -1 ==> stats == Zero()
    ensures code == 0 ==> StatsOk(stats) && (raw ==> stats.seen == {} && stats.esol == 0 && stats.edsol == 0)
    ensures code == 0 ==> order == (if presort then SortByLength(input) else input)
    ensures code == 0 ==> (forall n :: 0 <= n < |sols| ==> Solution(order, sols[n])) && Seeded(sols, 0)
    ensures code == 0 ==> forall n :: 0 <= n < |sols| ==> sols[n] != [] && sols[n][0] != [] && sols[n][0][0] in Seeds()
    ensures code == 0 ==> stats == AfterPlacements(order, raw, Zero(), sols)
    ensures code == 0 ==> starts == Seeds()
    ensures code == 0 && SumLengths(input) < Cells ==> stats.dsol == 0 && stats.edsol == 0
  {
    order, sols, starts := input, [], [];
    if !PartitionOk(parCnt, parIdx) || !WordCountOk(numWords) {
      return -1, Zero(), order, sols, starts;
    }
    var words := if presort then SortByLength(input) else input;
    assert forall v :: 0 <= v < |words| ==> words[v] in multiset(input);
    var t := new Torto(words, parCnt, parIdx, raw);
    assert t.Placement([[]]);
    t.Search();
    var tally := t.tally;
    code, stats := 0, Stats(tally.solCount, tally.dsolCount, tally.esolCount, tally.edsolCount, tally.unqSols);
    order, sols, starts := words, t.solutions, t.tried;
    if presort {
      SortKeepsLength(input);
    }
    if SumLengths(input) < Cells {
      ShortWordsNeverDeterminate(order, raw, Zero(), sols);
    }
    SeededInSeeds(sols, 0);
  }
}

=== FILE: grid.dfy ===
/**
 * The Torto board: a fixed grid of 6 rows by 3 columns, its cells, the
 * 8-neighbourhood a word's path moves through, and the four mirror
 * orientations under which a filled board is serialised into a key.
 */
module Grid {

  /** Board dimensions (NUM_ROW, NUM_COL). */
  const Rows: int := 6
  const Cols: int := 3
  /** Number of cells, and so the length of every board key. */
  const Cells: int := Rows * Cols
  /** Largest accepted word count (MAX_WORDS). */
  const MaxWords: int := 64

  /** A board coordinate: row `i`, column `j`. */
  datatype Cell = Cell(i: int, j: int)

  predicate InGrid(c: Cell) {
    0 <= c.i < Rows && 0 <= c.j < Cols
  }

  /** Two distinct cells that touch by a side or by a corner. */
  predicate Adjacent(a: Cell, b: Cell) {
    a != b && -1 <= a.i - b.i <= 1 && -1 <= a.j - b.j <= 1
  }

  /** A step between cells that touch only by a corner. */
  predicate Diagonal(a: Cell, b: Cell) {
    Adjacent(a, b) && a.i != b.i && a.j != b.j
  }

  /** The two cells a diagonal step from `a` to `b` passes between. */
  function CornerA(a: Cell, b: Cell): Cell { Cell(a.i, b.j) }
  function CornerB(a: Cell, b: Cell): Cell { Cell(b.i, a.j) }

  /** Row-major position of cell (i, j) in a board key. */
  function Index(i: int, j: int): (k: int)
    requires 0 <= i < Rows && 0 <= j < Cols
    ensures 0 <= k < Cells && k / Cols == i && k % Cols == j
  {
    i * Cols + j
  }

  /** The coordinate a flipped key reads at (i, j): row `Rows-1-i` under a y-flip, column `Cols-1-j` under an x-flip. */
  function Flip(c: Cell, flipy: bool, flipx: bool): (d: Cell)
    ensures InGrid(c) ==> InGrid(d)
  {
    Cell(if flipy then Rows - 1 - c.i else c.i, if flipx then Cols - 1 - c.j else c.j)
  }

  /** Key position read by position `k` of the key with the given flips. */
  function Mirror(k: int, flipy: bool, flipx: bool): (m: int)
    requires 0 <= k < Cells
    ensures 0 <= m < Cells
  {
    var c := Flip(Cell(k / Cols, k % Cols), flipy, flipx);
    Index(c.i, c.j)
  }

  /**
   * A key of a board seen under the given flips: position Index(i, j) holds
   * what the unflipped key holds at the flipped coordinate.
   */
  function Orient(g: seq<char>, flipy: bool, flipx: bool): (r: seq<char>)
    requires |g| == Cells
    ensures |r| == Cells
  {
    seq(Cells, k requires 0 <= k < Cells => g[Mirror(k, flipy, flipx)])
  }

  /** Position (i, j) of a flipped key holds what the unflipped key holds at the flipped coordinate. */
  lemma OrientAt(g: seq<char>, flipy: bool, flipx: bool, i: int, j: int)
    requires |g| == Cells && 0 <= i < Rows && 0 <= j < Cols
    ensures Orient(g, flipy, flipx)[Index(i, j)] == g[Index(if flipy then Rows - 1 - i else i, if flipx then Cols - 1 - j else j)]
  {
  }

  /** The four keys the emitter computes for one board, in the order it computes them. */
  function OrbitKeys(g: seq<char>): seq<seq<char>>
    requires |g| == Cells
  {
    [Orient(g, false, false), Orient(g, false, true), Orient(g, true, false), Orient(g, true, true)]
  }

  /** The four keys the emitter computes for one board, as a set. */
  function Orbit(g: seq<char>): set<seq<char>>
    requires |g| == Cells
  {
    {Orient(g, false, false), Orient(g, false, true), Orient(g, true, false), Orient(g, true, true)}
  }

  lemma MirrorCompose(k: int, a: bool, b: bool, c: bool, d: bool)
    requires 0 <= k < Cells
    ensures Mirror(Mirror(k, c, d), a, b) == Mirror(k, a != c, b != d)
  {
    var m := Mirror(k, c, d);
    assert m / Cols == (if c then Rows - 1 - k / Cols else k / Cols);
    assert m % Cols == (if d then Cols - 1 - k % Cols else k % Cols);
  }

  /** Flipping a key and then flipping the result composes the flips. */
  lemma OrientCompose(g: seq<char>, a: bool, b: bool, c: bool, d: bool)
    requires |g| == Cells
    ensures Orient(Orient(g, a, b), c, d) == Orient(g, a != c, b != d)
  {
    forall k | 0 <= k < Cells
      ensures Orient(Orient(g, a, b), c, d)[k] == Orient(g, a != c, b != d)[k]
    {
      MirrorCompose(k, a, b, c, d);
    }
  }

  /** The unflipped key is the board itself. */
  lemma OrientIdentity(g: seq<char>)
    requires |g| == Cells
    ensures Orient(g, false, false) == g
  {
    forall k | 0 <= k < Cells ensures Orient(g, false, false)[k] == g[k] {
      assert Mirror(k, false, false) == k;
    }
  }

  /** Each flip, and both together, is an involution on keys. */
  lemma OrientInvolution(g: seq<char>, flipy: bool, flipx: bool)
    requires |g| == Cells
    ensures Orient(Orient(g, flipy, flipx), flipy, flipx) == g
  {
    OrientCompose(g, flipy, flipx, flipy, flipx);
    OrientIdentity(g);
  }

  /** A mirrored board has the same four keys as the board itself. */
  lemma OrbitOfMirror(g: seq<char>, flipy: bool, flipx: bool)
    requires |g| == Cells
    ensures Orbit(Orient(g, flipy, flipx)) == Orbit(g)
  {
    var m := Orient(g, flipy, flipx);
    OrientCompose(g, flipy, flipx, false, false);
    OrientCompose(g, flipy, flipx, false, true);
    OrientCompose(g, flipy, flipx, true, false);
    OrientCompose(g, flipy, flipx, true, true);
  }

  /**
   * A mirrored board yields the same four keys, counted with multiplicity:
   * the emitter's four calls see the same keys, only in another order.
   */
  lemma OrbitKeysOfMirror(g: seq<char>, flipy: bool, flipx: bool)
    requires |g| == Cells
    ensures multiset(OrbitKeys(Orient(g, flipy, flipx))) == multiset(OrbitKeys(g))
  {
    OrientCompose(g, flipy, flipx, false, false);
    OrientCompose(g, flipy, flipx, false, true);
    OrientCompose(g, flipy, flipx, true, false);
    OrientCompose(g, flipy, flipx, true, true);
    var a, b, c, d := Orient(g, false, false), Orient(g, false, true), Orient(g, true, false), Orient(g, true, true);
    var ks := OrbitKeys(Orient(g, flipy, flipx));
    assert OrbitKeys(g) == [a, b, c, d];
    if !flipy && !flipx {
      assert ks == [a, b, c, d];
    } else if !flipy {
      assert ks == [b, a, d, c];
    } else if !flipx {
      assert ks == [c, d, a, b];
    } else {
      assert ks == [d, c, b, a];
    }
    SwappedFour(ks, a, b, c, d);
  }

  /** Four values swapped in pairs, or reversed, are the same multiset. */
  lemma SwappedFour<T>(ks: seq<T>, a: T, b: T, c: T, d: T)
    requires ks == [a, b, c, d] || ks == [b, a, d, c] || ks == [c, d, a, b] || ks == [d, c, b, a]
    ensures multiset(ks) == multiset([a, b, c, d])
  {
    MultisetOfFour(a, b, c, d);
    if ks == [b, a, d, c] {
      MultisetOfFour(b, a, d, c);
      SwapPairs(a, b, c, d);
    } else if ks == [c, d, a, b] {
      MultisetOfFour(c, d, a, b);
      SwapHalves(a, b, c, d);
    } else if ks == [d, c, b, a] {
      MultisetOfFour(d, c, b, a);
      ReverseFour(a, b, c, d);
    }
  }

  lemma MultisetOfFour<T>(a: T, b: T, c: T, d: T)
    ensures multiset([a, b, c, d]) == multiset{a, b, c, d}
  {
  }

  lemma SwapPairs<T>(a: T, b: T, c: T, d: T)
    ensures multiset{b, a, d, c} == multiset{a, b, c, d}
  {
  }

  lemma SwapHalves<T>(a: T, b: T, c: T, d: T)
    ensures multiset{c, d, a, b} == multiset{a, b, c, d}
  {
  }

  lemma ReverseFour<T>(a: T, b: T, c: T, d: T)
    ensures multiset{d, c, b, a} == multiset{a, b, c, d}
  {
  }

  /** The four keys computed from a board, seen from its unflipped key. */
  lemma KeysOfBoard(g: seq<char>, k1: seq<char>, k2: seq<char>, k3: seq<char>, k4: seq<char>)
    requires |g| == Cells
    requires k1 == Orient(g, false, false) && k2 == Orient(g, false, true)
    requires k3 == Orient(g, true, false) && k4 == Orient(g, true, true)
    ensures k1 == g && |k1| == Cells
    ensures k2 == Orient(k1, false, true) && k3 == Orient(k1, true, false) && k4 == Orient(k1, true, true)
  {
    OrientIdentity(g);
  }

  /** Cells (i, 0) .. (i, n - 1) of row `i`, left to right. */
  function SeedRow(i: int, n: nat): (r: seq<Cell>)
    ensures |r| == n
  {
    seq(n, k => Cell(i, k))
  }

  /** The first `m` rows of the `n` leftmost columns, row by row. */
  function SeedRows(m: nat, n: nat): seq<Cell> {
    if m == 0 then [] else SeedRows(m - 1, n) + SeedRow(m - 1, n)
  }

  /** Starting cells of word 0: the top-left quarter, rows below (Rows+1)/2 and columns below (Cols+1)/2, row by row. */
  function Seeds(): seq<Cell> {
    SeedRows((Rows + 1) / 2, (Cols + 1) / 2)
  }

  lemma InSeedRow(i: int, n: nat, c: Cell)
    ensures c in SeedRow(i, n) <==> c.i == i && 0 <= c.j < n
  {
    if c.i == i && 0 <= c.j < n {
      assert SeedRow(i, n)[c.j] == c;
    }
  }

  lemma {:induction false} InSeedRows(m: nat, n: nat, c: Cell)
    ensures c in SeedRows(m, n) <==> 0 <= c.i < m && 0 <= c.j < n
  {
    if m > 0 {
      InSeedRows(m - 1, n, c);
      InSeedRow(m - 1, n, c);
    }
  }

  /** The top-left quarter of the grid, middle row and column included when the size is odd. */
  predicate InQuarter(c: Cell) {
    0 <= c.i < (Rows + 1) / 2 && 0 <= c.j < (Cols + 1) / 2
  }

  /** The seeds are exactly the cells of the top-left quarter. */
  lemma SeedsAreQuarter(c: Cell)
    ensures c in Seeds() <==> InQuarter(c)
  {
    InSeedRows((Rows + 1) / 2, (Cols + 1) / 2, c);
  }

  /** Every cell of the grid is a mirror image of some seed, which is why seeding from the quarter loses no board. */
  lemma SeedsCoverGrid(c: Cell) returns (s: Cell, flipy: bool, flipx: bool)
    requires InGrid(c)
    ensures s in Seeds() && Flip(s, flipy, flipx) == c
  {
    flipy := c.i >= (Rows + 1) / 2;
    flipx := c.j >= (Cols + 1) / 2;
    s := Flip(c, flipy, flipx);
    SeedsAreQuarter(s);
  }

  // ---------------------------------------------------------------- counting

  /** The total length of a list of sequences: the letters of a word list, the cells of a placement. */
  function SumLengths<T>(xs: seq<seq<T>>): nat
    decreases |xs|
  {
    if xs == [] then 0 else |xs[0]| + SumLengths(xs[1..])
  }

  /** Lists whose members have the same lengths, position by position, have the same total. */
  lemma {:induction false} SumLengthsMatch<T, U>(xs: seq<seq<T>>, ys: seq<seq<U>>)
    requires |xs| == |ys| && forall v :: 0 <= v < |xs| ==> |xs[v]| == |ys[v]|
    decreases |xs|
    ensures SumLengths(xs) == SumLengths(ys)
  {
    if xs != [] {
      SumLengthsMatch(xs[1..], ys[1..]);
    }
  }

  /** Every cell of the grid, row by row. */
  function AllCells(): (r: seq<Cell>)
    ensures |r| == Cells
    ensures forall k :: 0 <= k < Cells ==> InGrid(r[k])
    ensures forall x, y :: 0 <= x < y < Cells ==> r[x] != r[y]
  {
    seq(Cells, k requires 0 <= k < Cells => Cell(k / Cols, k % Cols))
  }

  /** A sequence without repeats has as many distinct elements as positions. */
  lemma {:induction false} DistinctCard<T>(q: seq<T>)
    requires forall x, y :: 0 <= x < y < |q| ==> q[x] != q[y]
    ensures |set z | z in q| == |q|
  {
    if q != [] {
      var rest := set z | z in q[1..];
      DistinctCard(q[1..]);
      assert (set z | z in q) == {q[0]} + rest;
    }
  }

  /** A subset has at most as many elements. */
  lemma SubsetCard<T>(a: set<T>, b: set<T>)
    requires a <= b
    ensures |a| <= |b|
  {
    assert b == a + (b - a);
    assert a !! (b - a);
  }
}

=== FILE: merge.dfy ===
/**
 * tortomerge: reads boards back from the text the partitioned torto runs
 * print, one board per line, and feeds each one to the same emitter, so
 * that mirror images found by different runs are counted once.
 *
 * Its board holds the character read at each cell, with 0 for an empty
 * cell, and its keys copy those characters as they are (where torto's keys
 * show '.').
 */
module Merge {
  import opened Grid
  import opened Dedup

  /** A character of an input line as stored on the board: '.' is an empty cell. */
  function Decode(c: char): (d: char)
    ensures d == '\0' <==> c == '.' || c == '\0'
    ensures d != '\0' ==> d == c
  {
    if c == '.' then '\0' else c
  }

  /** strlen: the number of characters before the first NUL of the buffer. */
  function CStrLen(buf: string): (n: nat)
    ensures n <= |buf|
    ensures forall k :: 0 <= k < n ==> buf[k] != '\0'
    ensures n < |buf| ==> buf[n] == '\0'
  {
    if buf == [] || buf[0] == '\0' then 0 else 1 + CStrLen(buf[1..])
  }

  /** The board a line describes: its first Cells characters, row by row, decoded. */
  function ParseBoard(line: string): (g: string)
    requires |line| >= Cells
    ensures |g| == Cells
    ensures forall k :: 0 <= k < Cells ==> (g[k] == '\0' <==> line[k] == '.' || line[k] == '\0')
    ensures forall k :: 0 <= k < Cells && g[k] != '\0' ==> g[k] == line[k]
  {
    seq(Cells, k requires 0 <= k < Cells => Decode(line[k]))
  }

  /** How output_board writes a board on one line: '.' for an empty cell. */
  function Render(g: string): (line: string)
    ensures |line| == |g|
  {
    seq(|g|, k requires 0 <= k < |g| => if g[k] == '\0' then '.' else g[k])
  }

  /** A line long enough is parsed and emitted; a shorter one is skipped. */
  function AfterLine(s: Stats, buf: string): (r: Stats)
    ensures CStrLen(buf) < Cells ==> r == s
    ensures CStrLen(buf) >= Cells ==> r.seen == s.seen + Orbit(ParseBoard(buf))
    ensures r.esol > s.esol <==> CStrLen(buf) >= Cells && Orbit(ParseBoard(buf)) !! s.seen
  {
    if CStrLen(buf) >= Cells then
      var g := ParseBoard(buf);
      SolutionEffect(s, OrbitKeys(g), '\0' !in g);
      OrbitKeySet(g);
      AfterBoard(s, g, '\0' !in g, false)
    else s
  }

  /** The emitter's state after the lines `lines`, in order. */
  function AfterLines(s: Stats, lines: seq<string>): Stats
    decreases |lines|
  {
    if lines == [] then s else AfterLine(AfterLines(s, lines[..|lines| - 1]), lines[|lines| - 1])
  }

  // ---------------------------------------------------------------- lemmas

  /**
   * The parse test counts the line's newline: a board line of only
   * Cells - 1 characters followed by its newline is accepted, and its last
   * cell holds the newline.
   */
  lemma NewlineCounts(row: string)
    requires |row| == Cells - 1 && '\0' !in row
    ensures CStrLen(row + ['\n']) == Cells && ParseBoard(row + ['\n'])[Cells - 1] == '\n'
  {
  }

  /** A parsed board is determinate exactly when none of its first Cells characters is '.'. */
  lemma ParsedDeterminate(line: string)
    requires CStrLen(line) >= Cells
    ensures '\0' !in ParseBoard(line) <==> '.' !in line[..Cells]
  {
    var g := ParseBoard(line);
    if '\0' in g {
      var k :| 0 <= k < Cells && g[k] == '\0';
      assert line[..Cells][k] == '.';
    }
    if '.' in line[..Cells] {
      var k :| 0 <= k < Cells && line[..Cells][k] == '.';
      assert g[k] == '\0';
    }
  }

  /** Reading a board back from its rendering gives the board, provided no cell holds a '.' letter. */
  lemma ParseRender(g: string)
    requires |g| == Cells && '.' !in g
    ensures CStrLen(Render(g) + ['\n']) == Cells + 1
    ensures ParseBoard(Render(g) + ['\n']) == g
  {
    var line := Render(g) + ['\n'];
    forall k | 0 <= k < |line| ensures line[k] != '\0' {
      if k < Cells {
        assert line[k] == Render(g)[k];
      }
    }
    forall k | 0 <= k < Cells ensures ParseBoard(line)[k] == g[k] {
      assert line[k] == Render(g)[k];
    }
  }

  /** Parsing a line after mirroring its board text gives the mirror of the parsed board. */
  lemma ParseOrient(line: string, flipy: bool, flipx: bool)
    requires |line| >= Cells
    ensures ParseBoard(Orient(line[..Cells], flipy, flipx)) == Orient(ParseBoard(line), flipy, flipx)
  {
    forall k | 0 <= k < Cells
      ensures ParseBoard(Orient(line[..Cells], flipy, flipx))[k] == Orient(ParseBoard(line), flipy, flipx)[k]
    {
      var m := Mirror(k, flipy, flipx);
      assert line[..Cells][m] == line[m];
    }
  }

  /**
   * A line whose board is the same as, or a mirror image of, a board already
   * merged changes neither the counters nor the seen set.
   */
  lemma RepeatedLineIsNoOp(s: Stats, a: string, b: string, flipy: bool, flipx: bool)
    requires CStrLen(a) >= Cells && CStrLen(b) >= Cells
    requires ParseBoard(b) == Orient(ParseBoard(a), flipy, flipx)
    ensures AfterLine(AfterLine(s, a), b) == AfterLine(s, a)
  {
    var g := ParseBoard(a);
    MirrorIsDuplicate(s, g, '\0' !in g, '\0' !in ParseBoard(b), flipy, flipx);
  }

  /** Merging any lines keeps the emitter's invariant and never lowers a counter nor forgets a key. */
  lemma {:induction false} AfterLinesOk(s: Stats, lines: seq<string>)
    requires StatsOk(s)
    decreases |lines|
    ensures StatsOk(AfterLines(s, lines)) && Grows(s, AfterLines(s, lines))
  {
    if lines != [] {
      var prefix := lines[..|lines| - 1];
      var line := lines[|lines| - 1];
      AfterLinesOk(s, prefix);
      var t := AfterLines(s, prefix);
      if CStrLen(line) >= Cells {
        var g := ParseBoard(line);
        AfterBoardOk(t, g, '\0' !in g, false);
      }
    }
  }

  // ---------------------------------------------------------------- Merger

  /** tortomerge's global board and its emitter (never in raw mode). */
  class Merger {
    const board: array2<char>
    const tally: Tally

    predicate Shape() {
      board.Length0 == Rows && board.Length1 == Cols
    }

    ghost predicate Valid()
      reads this, tally
    {
      Shape() && tally.Valid() && !tally.raw
    }

    /** The board row by row, 0 at empty cells. */
    ghost function Contents(): (g: string)
      requires Shape()
      reads board
      ensures |g| == Cells
    {
      seq(Cells, k requires 0 <= k < Cells reads board => board[k / Cols, k % Cols])
    }

    constructor ()
      ensures Valid() && tally.State() == Zero()
      ensures Contents() == seq(Cells, k => '\0')
      ensures fresh(board) && fresh(tally)
    {
      board := new char[Rows, Cols]((a, b) => '\0');
      tally := new Tally(false);
    }

    /** is_determinate: no cell is empty. */
    method IsDeterminate() returns (det: bool)
      requires Shape()
      ensures det <==> '\0' !in Contents()
    {
      for i := 0 to Rows
        invariant forall a, b :: 0 <= a < i && 0 <= b < Cols ==> board[a, b] != '\0'
      {
        for j := 0 to Cols
          invariant forall a, b :: 0 <= a < i && 0 <= b < Cols ==> board[a, b] != '\0'
          invariant forall b :: 0 <= b < j ==> board[i, b] != '\0'
        {
          if board[i, j] == '\0' {
            assert Contents()[Index(i, j)] == '\0';
            return false;
          }
        }
      }
      return true;
    }

    /** board_key: the board read row by row under the given flips, each cell's character as stored. */
    method BoardKey(flipy: bool, flipx: bool) returns (key: string)
      requires Shape()
      ensures key == Orient(Contents(), flipy, flipx)
    {
      key := [];
      for i := 0 to Rows
        invariant |key| == i * Cols
        invariant forall k :: 0 <= k < |key| ==> key[k] == Contents()[Mirror(k, flipy, flipx)]
      {
        for j := 0 to Cols
          invariant |key| == i * Cols + j
          invariant forall k :: 0 <= k < |key| ==> key[k] == Contents()[Mirror(k, flipy, flipx)]
        {
          var y := if flipy then Rows - 1 - i else i;
          var x := if flipx then Cols - 1 - j else j;
          assert Mirror(Index(i, j), flipy, flipx) == Index(y, x);
          key := key + [board[y, x]];
        }
      }
    }

    /** output_solution: records the board and its three mirror images with the emitter. */
    method OutputSolution()
      requires Valid()
      modifies tally
      ensures Valid() && Grows(old(tally.State()), tally.State())
      ensures tally.State() == AfterBoard(old(tally.State()), Contents(), '\0' !in Contents(), false)
    {
      var det := IsDeterminate();
      var k1 := BoardKey(false, false);
      var k2 := BoardKey(false, true);
      var k3 := BoardKey(true, false);
      var k4 := BoardKey(true, true);
      KeysOfBoard(Contents(), k1, k2, k3, k4);
      tally.OutputSolution(k1, k2, k3, k4, det);
    }

    /** The parse loop's body: fills the board row by row from the first Cells characters of the line. */
    method Load(line: string)
      requires Shape() && |line| >= Cells
      modifies board
      ensures Contents() == ParseBoard(line)
    {
      for i := 0 to Rows
        invariant forall a, b :: 0 <= a < i && 0 <= b < Cols ==> board[a, b] == Decode(line[Index(a, b)])
      {
        for j := 0 to Cols
          invariant forall a, b :: 0 <= a < i && 0 <= b < Cols ==> board[a, b] == Decode(line[Index(a, b)])
          invariant forall b :: 0 <= b < j ==> board[i, b] == Decode(line[Index(i, b)])
        {
          var c := line[i * Cols + j];
          board[i, j] := if c == '.' then '\0' else c;
        }
      }
      forall k | 0 <= k < Cells ensures Contents()[k] == ParseBoard(line)[k] {
        assert Index(k / Cols, k % Cols) == k;
      }
    }

    /** One buffer read by fgets: a line of at least Cells characters is loaded and emitted. */
    method ProcessLine(buf: string)
      requires Valid()
      modifies board, tally
      ensures Valid()
      ensures tally.State() == AfterLine(old(tally.State()), buf)
      ensures CStrLen(buf) >= Cells ==> Contents() == ParseBoard(buf)
      ensures CStrLen(buf) < Cells ==> unchanged(board)
    {
      if CStrLen(buf) >= Cells {
        Load(buf);
        OutputSolution();
      }
    }

    /** The read loop of main, over the buffers fgets returns in turn. */
    method MergeAll(lines: seq<string>)
      requires Valid()
      modifies board, tally
      ensures Valid()
      ensures tally.State() == AfterLines(old(tally.State()), lines)
    {
      for n := 0 to |lines|
        invariant Valid()
        invariant tally.State() == AfterLines(old(tally.State()), lines[..n])
      {
        assert lines[..n + 1][..n] == lines[..n];
        ProcessLine(lines[n]);
      }
      assert lines[..|lines|] == lines;
    }
  }

  /**
   * A whole tortomerge run without its output: the counters and the seen
   * set after merging the input lines, starting from nothing.
   */
  method MergeInput(lines: seq<string>) returns (s: Stats)
    ensures s == AfterLines(Zero(), lines) && StatsOk(s)
  {
    var m := new Merger();
    m.MergeAll(lines);
    s := Stats(m.tally.solCount, m.tally.dsolCount, m.tally.esolCount, m.tally.edsolCount, m.tally.unqSols);
  }
}

=== FILE: partition.dfy ===
/**
 * Partitioned search and the checks `main` makes before searching: the
 * 32-bit linear congruential hash that spreads the start cells of the
 * second word over `cnt` partitions, the filter that keeps one partition,
 * the validation of the `-p` pair and of the word count, and the
 * longest-word-first order the word list is sorted into.
 */
module Partition {
  import opened Grid

  /** `unsigned int` arithmetic wraps modulo 2^32. */
  const Modulus: int := 0x1_0000_0000

  /** One step of the hash: `h * 1103515245 + 12345` in 32-bit unsigned arithmetic. */
  function NextHash(h: nat): (r: nat)
    ensures r < Modulus
  {
    (h * 1103515245 + 12345) % Modulus
  }

  /** The partition filter: the start cell is explored in partition `idx` of `cnt`. */
  predicate Selected(h: nat, cnt: nat, idx: nat): (b: bool)
    requires cnt >= 1
    ensures b ==> idx < cnt
  {
    h % cnt == idx
  }

  /** The `-p <cnt> <idx>` pair is accepted: not `cnt < 1`, not `idx >= cnt`. */
  predicate PartitionOk(cnt: nat, idx: nat): (ok: bool)
    ensures ok <==> 1 <= cnt && idx < cnt
    ensures ok ==> Selected(idx, cnt, idx)
  {
    !(cnt < 1 || idx >= cnt)
  }

  /** The word count read from the input is accepted: not below 1, not above MAX_WORDS. */
  predicate WordCountOk(n: int): (ok: bool)
    ensures ok <==> 1 <= n <= MaxWords
  {
    !(n < 1 || n > MaxWords)
  }

  /** sorter: `a` goes before `b` when it is strictly longer. */
  predicate LongerFirst(a: string, b: string): (r: bool)
    ensures r ==> a != b
  {
    |a| > |b|
  }

  /** No word is placed after a strictly longer one. */
  predicate ByLength(ws: seq<string>) {
    forall x, y :: 0 <= x < y < |ws| ==> |ws[x]| >= |ws[y]|
  }

  /** Inserts `w` before the first word it is longer than. */
  function Insert(w: string, ws: seq<string>): (r: seq<string>)
    ensures |r| == |ws| + 1 && (r[0] == w || (ws != [] && r[0] == ws[0]))
  {
    if ws == [] || LongerFirst(w, ws[0]) || |w| == |ws[0]| then [w] + ws
    else [ws[0]] + Insert(w, ws[1..])
  }

  /**
   * A word list in the order std::sort with `sorter` leaves it: a permutation
   * of the input in which no word is preceded by a shorter one.
   */
  function SortByLength(ws: seq<string>): (r: seq<string>)
    ensures multiset(r) == multiset(ws)
    ensures ByLength(r)
  {
    if ws == [] then []
    else
      var t := SortByLength(ws[1..]);
      InsertPermutes(ws[0], t);
      InsertKeepsOrder(ws[0], t);
      assert ws == [ws[0]] + ws[1..];
      Insert(ws[0], t)
  }

  /** Insertion adds exactly the one word. */
  lemma {:induction false} InsertPermutes(w: string, ws: seq<string>)
    ensures multiset(Insert(w, ws)) == multiset(ws) + multiset{w}
  {
    if !(ws == [] || LongerFirst(w, ws[0]) || |w| == |ws[0]|) {
      InsertPermutes(w, ws[1..]);
      assert ws == [ws[0]] + ws[1..];
    }
  }

  /** Insertion into a list ordered longest first keeps it ordered. */
  lemma {:induction false} InsertKeepsOrder(w: string, ws: seq<string>)
    requires ByLength(ws)
    ensures ByLength(Insert(w, ws))
  {
    if ws == [] || LongerFirst(w, ws[0]) || |w| == |ws[0]| {
      ConsByLength(w, ws);
    } else {
      assert ByLength(ws[1..]);
      InsertKeepsOrder(w, ws[1..]);
      ConsByLength(ws[0], Insert(w, ws[1..]));
    }
  }

  /** A word at least as long as the head of an ordered list can go in front of it. */
  lemma ConsByLength(w: string, ws: seq<string>)
    requires ByLength(ws) && (ws != [] ==> |w| >= |ws[0]|)
    ensures ByLength([w] + ws)
  {
  }

  /** Insertion adds the word's letters to the total. */
  lemma {:induction false} InsertLength(w: string, ws: seq<string>)
    ensures SumLengths(Insert(w, ws)) == |w| + SumLengths(ws)
  {
    if !(ws == [] || LongerFirst(w, ws[0]) || |w| == |ws[0]|) {
      InsertLength(w, ws[1..]);
      assert ([ws[0]] + Insert(w, ws[1..]))[1..] == Insert(w, ws[1..]);
    } else {
      assert ([w] + ws)[1..] == ws;
    }
  }

  /** Sorting keeps the total number of letters. */
  lemma {:induction false} SortKeepsLength(ws: seq<string>)
    ensures SumLengths(SortByLength(ws)) == SumLengths(ws)
  {
    if ws != [] {
      SortKeepsLength(ws[1..]);
      InsertLength(ws[0], SortByLength(ws[1..]));
    }
  }

  // ---------------------------------------------------------------- lemmas

  /** Only the low 32 bits of the state matter, as for an `unsigned int`. */
  lemma NextHashWraps(h: nat)
    ensures NextHash(h) == NextHash(h % Modulus)
  {
    var q, r := h / Modulus, h % Modulus;
    var x := r * 1103515245 + 12345;
    assert h * 1103515245 + 12345 == x + (q * 1103515245) * Modulus;
    ModuloShift(x, q * 1103515245);
  }

  /** Adding a multiple of 2^32 does not change a value modulo 2^32. */
  lemma ModuloShift(x: int, n: int)
    ensures (x + n * Modulus) % Modulus == x % Modulus
  {
    assert x + n * Modulus == (x / Modulus + n) * Modulus + x % Modulus;
  }

  /** With a single partition the filter never rejects a cell. */
  lemma SingleAlwaysSelected(h: nat)
    ensures Selected(h, 1, 0)
  {
  }

  /** Every hash value is claimed by exactly one partition index below `cnt`. */
  lemma ExactlyOneOwner(h: nat, cnt: nat) returns (idx: nat)
    requires cnt >= 1
    ensures idx < cnt && Selected(h, cnt, idx)
    ensures forall j: nat :: j < cnt && Selected(h, cnt, j) ==> j == idx
  {
    idx := h % cnt;
  }

  /**
   * The `-p` check accepts exactly the index values the filter can select:
   * an accepted index owns some hash value, and a rejected index with
   * `cnt >= 1` owns none.
   */
  lemma PartitionCheckMatchesFilter(cnt: nat, idx: nat)
    requires cnt >= 1
    ensures PartitionOk(cnt, idx) <==> exists h: nat :: Selected(h, cnt, idx)
  {
    if PartitionOk(cnt, idx) {
      assert Selected(idx, cnt, idx);
    }
  }

  /** sorter is a strict weak ordering, as std::sort demands of its comparator. */
  lemma LongerFirstIsStrictWeakOrder(a: string, b: string, c: string)
    ensures !LongerFirst(a, a)
    ensures LongerFirst(a, b) && LongerFirst(b, c) ==> LongerFirst(a, c)
    ensures !LongerFirst(a, b) && !LongerFirst(b, a) && !LongerFirst(b, c) && !LongerFirst(c, b)
      ==> !LongerFirst(a, c) && !LongerFirst(c, a)
  {
  }

  /** An order sorted by length puts a longest word first. */
  lemma {:induction false} SortedLongestFirst(ws: seq<string>, k: int)
    requires 0 <= k < |ws|
    ensures |SortByLength(ws)[0]| >= |ws[k]|
  {
    var r := SortByLength(ws);
    assert ws[k] in multiset(ws);
    assert ws[k] in multiset(r);
    var m :| 0 <= m < |r| && r[m] == ws[k];
  }
}

=== FILE: trail.dfy ===
/**
 * The path one word traces over the board while it is being placed, and
 * the numbers the engine keeps in its arrays about such paths: the step
 * stamp ("crumb") a word leaves on each cell, and the count of words
 * covering a cell.
 */
module Trail {
  import opened Grid

  function Last(p: seq<Cell>): Cell
    requires p != []
  {
    p[|p| - 1]
  }

  /**
   * The crumb word leaves on `c` after visiting the cells of `p` in order:
   * `k + 2` for the cell of its `k`-th letter, 0 for a cell off the path.
   */
  function Stamp(p: seq<Cell>, c: Cell): (s: int)
    ensures s == 0 || 2 <= s <= |p| + 1
  {
    if p == [] then 0
    else if Last(p) == c then |p| + 1
    else Stamp(p[..|p| - 1], c)
  }

  /** `x` and `y` are visited one right after the other, in either order. */
  predicate Consecutive(p: seq<Cell>, x: Cell, y: Cell) {
    |p| >= 2 &&
    (var a, b := p[|p| - 2], p[|p| - 1];
     (a == x && b == y) || (a == y && b == x) || Consecutive(p[..|p| - 1], x, y))
  }

  /**
   * The no-crossing rule: the step from `a` to `b`, taken after the cells of
   * `p`, is diagonal and passes between two cells the word visited one right
   * after the other, so that its path would cross itself at a cell corner.
   */
  predicate CutsCorner(p: seq<Cell>, a: Cell, b: Cell) {
    Diagonal(a, b) && Consecutive(p, CornerA(a, b), CornerB(a, b))
  }

  /**
   * A legal (partial) path of one word: every cell in the grid, no cell
   * twice, each step to an 8-neighbour, and no step cutting a corner of the
   * path laid down before it.
   */
  predicate Walk(p: seq<Cell>) {
    p == [] ||
    (var q, x := p[..|p| - 1], Last(p);
     Walk(q) && InGrid(x) && x !in q &&
     (q != [] ==> Adjacent(Last(q), x) && !CutsCorner(q, Last(q), x)))
  }

  predicate Distinct(p: seq<Cell>) {
    forall a, b :: 0 <= a < b < |p| ==> p[a] != p[b]
  }

  /** Number of words, among the paths `ps`, whose path covers `c`. */
  function Cover(ps: seq<seq<Cell>>, c: Cell): nat {
    if ps == [] then 0 else (if c in ps[0] then 1 else 0) + Cover(ps[1..], c)
  }

  /** Every cell of the grid is covered by some word (is_determinate's test, on paths). */
  predicate Covered(ps: seq<seq<Cell>>) {
    forall a, b :: 0 <= a < Rows && 0 <= b < Cols ==> Cover(ps, Cell(a, b)) != 0
  }

  /** The cells the paths `ps` run through. */
  function Visited(ps: seq<seq<Cell>>): set<Cell>
    decreases |ps|
  {
    if ps == [] then {} else (set c | c in ps[0]) + Visited(ps[1..])
  }

  /** Two diagonal-or-not steps `a`->`b` and `c`->`d` form an X through a cell corner. */
  predicate Crosses(a: Cell, b: Cell, c: Cell, d: Cell) {
    Diagonal(a, b) &&
    ((c == CornerA(a, b) && d == CornerB(a, b)) || (c == CornerB(a, b) && d == CornerA(a, b)))
  }

  // ---------------------------------------------------------------- Stamp

  /** A cell carries no crumb exactly when it is off the path. */
  lemma {:induction false} StampZero(p: seq<Cell>, c: Cell)
    ensures Stamp(p, c) == 0 <==> c !in p
  {
    if p != [] {
      assert p == p[..|p| - 1] + [Last(p)];
      StampZero(p[..|p| - 1], c);
    }
  }

  /** On a path without repeats, the cell of letter `k` carries crumb `k + 2`. */
  lemma {:induction false} StampAt(p: seq<Cell>, k: int)
    requires Distinct(p) && 0 <= k < |p|
    ensures Stamp(p, p[k]) == k + 2
  {
    if k < |p| - 1 {
      StampAt(p[..|p| - 1], k);
    }
  }

  /** A non-zero crumb names the position of its cell on the path. */
  lemma {:induction false} StampHit(p: seq<Cell>, c: Cell)
    requires Stamp(p, c) != 0
    ensures p[Stamp(p, c) - 2] == c
  {
    if Last(p) != c {
      StampHit(p[..|p| - 1], c);
    }
  }

  lemma StampStep(p: seq<Cell>, x: Cell, c: Cell)
    ensures Stamp(p + [x], c) == if c == x then |p| + 2 else Stamp(p, c)
  {
    assert (p + [x])[..|p|] == p;
  }

  // ---------------------------------------------------------- Consecutive

  /** Every step of a path makes its two cells consecutive. */
  lemma {:induction false} ConsecutiveAt(p: seq<Cell>, m: int)
    requires 0 <= m && m + 1 < |p|
    ensures Consecutive(p, p[m], p[m + 1]) && Consecutive(p, p[m + 1], p[m])
  {
    if m + 2 < |p| {
      ConsecutiveAt(p[..|p| - 1], m);
    }
  }

  /** Consecutive cells are the two ends of some step of the path. */
  lemma {:induction false} ConsecutiveStep(p: seq<Cell>, x: Cell, y: Cell) returns (m: int)
    requires Consecutive(p, x, y)
    ensures 0 <= m && m + 1 < |p|
    ensures (p[m] == x && p[m + 1] == y) || (p[m] == y && p[m + 1] == x)
  {
    var a, b := p[|p| - 2], p[|p| - 1];
    if (a == x && b == y) || (a == y && b == x) {
      m := |p| - 2;
    } else {
      m := ConsecutiveStep(p[..|p| - 1], x, y);
    }
  }

  /**
   * What the engine's diagonal test decides: on a path without repeats, the
   * crumbs of two cells differ by exactly 1 if and only if the word visited
   * them one right after the other. Crumbs are 0 or at least 2, so a cell off
   * the path never passes the test.
   */
  lemma {:induction false} StampsDifferByOne(p: seq<Cell>, x: Cell, y: Cell)
    requires Distinct(p)
    ensures Consecutive(p, x, y) <==> (Stamp(p, x) - Stamp(p, y) == 1 || Stamp(p, y) - Stamp(p, x) == 1)
  {
    var sx, sy := Stamp(p, x), Stamp(p, y);
    if Consecutive(p, x, y) {
      var m := ConsecutiveStep(p, x, y);
      StampAt(p, m);
      StampAt(p, m + 1);
    }
    if sx - sy == 1 || sy - sx == 1 {
      StampHit(p, x);
      StampHit(p, y);
      var m := if sx < sy then sx - 2 else sy - 2;
      ConsecutiveAt(p, m);
    }
  }

  // ------------------------------------------------------------------ Walk

  lemma WalkPrefix(p: seq<Cell>, x: Cell)
    ensures Walk(p + [x]) <==>
      Walk(p) && InGrid(x) && x !in p &&
      (p != [] ==> Adjacent(Last(p), x) && !CutsCorner(p, Last(p), x))
  {
    assert (p + [x])[..|p|] == p;
  }

  /** A legal path lies in the grid and visits no cell twice. */
  lemma {:induction false} WalkDistinct(p: seq<Cell>)
    requires Walk(p)
    ensures Distinct(p)
    ensures forall k :: 0 <= k < |p| ==> InGrid(p[k])
  {
    if p != [] {
      var q := p[..|p| - 1];
      WalkDistinct(q);
      assert p == q + [Last(p)];
    }
  }

  /** Consecutive cells of a legal path are 8-neighbours. */
  lemma {:induction false} WalkAdjacent(p: seq<Cell>, k: int)
    requires Walk(p) && 0 <= k && k + 1 < |p|
    ensures Adjacent(p[k], p[k + 1])
  {
    var q := p[..|p| - 1];
    if k + 2 < |p| {
      WalkAdjacent(q, k);
    }
  }

  /**
   * The no-crossing rule, checked only against the path laid down before each
   * step, forbids every crossing: no two steps of a legal path form an X
   * through a cell corner, whichever of the two was taken first.
   */
  lemma {:induction false} WalkNeverCrosses(p: seq<Cell>, k: int, m: int)
    requires Walk(p) && 0 <= k && k + 1 < |p| && 0 <= m && m + 1 < |p|
    ensures !Crosses(p[k], p[k + 1], p[m], p[m + 1])
  {
    var q := p[..|p| - 1];
    if k + 2 < |p| && m + 2 < |p| {
      WalkNeverCrosses(q, k, m);
    } else if k + 2 == |p| {
      // the later step is k: its corners would be the consecutive cells p[m], p[m+1]
      if m < k {
        ConsecutiveAt(q, m);
      }
    } else {
      // the later step is m: if it ran between the corners of step k, step k
      // would run between the corners of step m
      ConsecutiveAt(q, k);
    }
  }

  // ----------------------------------------------------------------- Cover

  /** The cover count of `c` is 0 exactly when no word's path runs through `c`. */
  lemma {:induction false} CoverZero(ps: seq<seq<Cell>>, c: Cell)
    ensures Cover(ps, c) == 0 <==> forall v :: 0 <= v < |ps| ==> c !in ps[v]
  {
    if ps != [] {
      CoverZero(ps[1..], c);
      assert forall v :: 1 <= v < |ps| ==> ps[v] == ps[1..][v - 1];
    }
  }

  /** A cell on some word's path is covered. */
  lemma {:induction false} CoverPositive(ps: seq<seq<Cell>>, v: int, c: Cell)
    requires 0 <= v < |ps| && c in ps[v]
    ensures Cover(ps, c) > 0
  {
    if v > 0 {
      CoverPositive(ps[1..], v - 1, c);
    }
  }

  /** A covered cell names a word and a letter position whose path reaches it. */
  lemma {:induction false} CoverWitness(ps: seq<seq<Cell>>, c: Cell) returns (v: int, k: int)
    requires Cover(ps, c) > 0
    ensures 0 <= v < |ps| && 0 <= k < |ps[v]| && ps[v][k] == c
  {
    if c in ps[0] {
      v := 0;
      k :| 0 <= k < |ps[0]| && ps[0][k] == c;
    } else {
      v, k := CoverWitness(ps[1..], c);
      v := v + 1;
    }
  }

  /**
   * Extending word `w`'s path by a cell it has not visited raises the cover
   * count of that cell by one and of no other cell.
   */
  lemma {:induction false} CoverExtend(ps: seq<seq<Cell>>, w: int, x: Cell, c: Cell)
    requires 0 <= w < |ps| && x !in ps[w]
    ensures Cover(ps[w := ps[w] + [x]], c) == Cover(ps, c) + (if c == x then 1 else 0)
  {
    var qs := ps[w := ps[w] + [x]];
    if w == 0 {
      assert qs[1..] == ps[1..];
    } else {
      assert qs[1..] == ps[1..][w - 1 := ps[w] + [x]];
      CoverExtend(ps[1..], w - 1, x, c);
    }
  }

  /** A word that has not started yet covers nothing. */
  lemma {:induction false} CoverAppendEmpty(ps: seq<seq<Cell>>, c: Cell)
    ensures Cover(ps + [[]], c) == Cover(ps, c)
  {
    if ps != [] {
      assert (ps + [[]])[1..] == ps[1..] + [[]];
      CoverAppendEmpty(ps[1..], c);
    }
  }

  /** A cell is covered exactly when some path runs through it. */
  lemma {:induction false} CoverVisited(ps: seq<seq<Cell>>, c: Cell)
    ensures Cover(ps, c) > 0 <==> c in Visited(ps)
  {
    if ps != [] {
      CoverVisited(ps[1..], c);
    }
  }

  /** The paths run through at most as many cells as they have letters. */
  lemma {:induction false} VisitedCard(ps: seq<seq<Cell>>)
    ensures |Visited(ps)| <= SumLengths(ps)
  {
    if ps != [] {
      VisitedCard(ps[1..]);
      SetOfSeqCard(ps[0]);
    }
  }

  /** A path runs through at most as many cells as it has letters. */
  lemma {:induction false} SetOfSeqCard(p: seq<Cell>)
    ensures |set c | c in p| <= |p|
  {
    if p != [] {
      SetOfSeqCard(p[1..]);
      assert (set c | c in p) == {p[0]} + (set c | c in p[1..]);
    }
  }

  /**
   * The words of a placement that covers the whole grid have at least Cells
   * letters between them: each letter covers one cell.
   */
  lemma CoveredLength(ps: seq<seq<Cell>>)
    requires Covered(ps)
    ensures SumLengths(ps) >= Cells
  {
    var all := AllCells();
    var grid := set c | c in all;
    DistinctCard(all);
    forall c | c in grid ensures c in Visited(ps) {
      CoverVisited(ps, c);
    }
    SubsetCard(grid, Visited(ps));
    VisitedCard(ps);
  }
}
